=== FILE: README.md ===
# get-bored, modelled in Dafny

get-bored is a browser extension that replaces distracting pages with a short
deterrent message. This project models its decision logic:

- the early-running content script `js/content.js`. It decides whether a page
  is blocked by domain (blacklist or whitelist mode, with TikTok added
  implicitly in anti-shorts mode). It then checks the anti-shorts path rules,
  guards `replacePageContent` with the `contentReplaced` flag, hides short-video
  links and appends `/shorts` to the YouTube rule;
- the other content script, `content.js`. It calls
  `handleDomainBlocking` with one argument, re-runs `antishorts()` from a DOM
  mutation observer, and replaces the page after a one-second timer that first
  disconnects that observer;
- the settings popup `popup.js`. It parses the textareas into site lists,
  applies defaults when settings are loaded, enforces the twelve-hour cooldown
  before anti-shorts mode may be switched off, and updates the
  `antishortsModeEnabledAt` timestamp on save.

Modules:

- `Wrappers`: `Option`.
- `Text`: JavaScript string operations (`startsWith`, `endsWith`, `includes`,
  `trim` with the ECMAScript whitespace set, `split`, `join`).
- `Domains`: `isSubdomainOrItself` and the `Set` scan inside
  `handleDomainBlocking`.
- `AntishortsRules`: the `antishortsBlockedPaths` table, its first-match lookup
  in key order, `clearBlockedPage`, `antishortsHideButtons` and the YouTube
  `push`.
- `PageBlocker`: `js/content.js`.
- `ObserverSession`: `content.js`.
- `Popup`: `popup.js`.

The DOM, storage, timers and the clock are not modelled directly:

- page effects become counters and flags on immutable state records;
- storage reads become input records;
- `Date.now()` becomes a `now` parameter;
- timers and DOM mutations become explicit events.

Where `content.js` differs from what its own comments and the other script
describe, the model follows the code:

- The JSDoc of `handleDomainBlocking` (content.js:63-68) documents an
  `antishortsMode` parameter, but `main` never passes it (content.js:11). So
  this script never adds TikTok to the blacklist. See
  `ObserverSession.TikTokNotImplicitlyBlacklisted`.
- `js/content.js:69-71` guards `replacePageContent` so that it runs only once.
  The `replacePageContent` in `content.js` has no such guard. Each blocked observer pass
  schedules another replacement. Once the first one removes `document.head`,
  every later one throws. See `ObserverSession.BlockedPathTrace`.

## Model

| member | source | states |
|---|---|---|
| Text.Trim | popup.js:144 | `trim()` returns a substring of its input, with only whitespace cut on either side, that neither starts nor ends with whitespace |
| Text.TrimTrimmed | popup.js:144 | trimming a string that is already trimmed gives it back unchanged |
| Text.Split | popup.js:143 | `split("\n")` returns at least one piece, no piece holds the separator, and joining the pieces with the separator rebuilds the input |
| Text.SplitJoin | popup.js:62 | splitting a `join("\n")` of one or more separator-free pieces gives the same pieces back |
| Text.SplitAppend | popup.js:143 | splitting `a + "\n" + b` gives the pieces of `a` followed by the pieces of `b` |
| Domains.SubdomainMeansDottedPrefix | js/content.js:320-322 | `isSubdomainOrItself(sub, domain)` holds exactly when `domain` is `sub` or some text, a dot, then `sub` |
| Domains.LookAlikeDoesNotMatch | js/content.js:320-322 | `github.com` and `docs.github.com` match `github.com`; `githubx.com` and `xgithub.com` do not |
| Domains.SubdomainTransitive | js/content.js:320-322 | a subdomain of a subdomain of a domain is a subdomain of that domain |
| Domains.SharedHostMeansNested | js/content.js:320-322 | two domains that match the same host are nested, one a subdomain of the other |
| Domains.MatchesAnyIgnoresOrder | js/content.js:97 | turning the list into a `Set` is harmless: lists with the same entries match the same hosts |
| Domains.MatchesAnyAppend | js/content.js:117-122 | adding an entry to the set matches exactly the hosts the old set or the new entry match |
| Domains.ScanForDomain | js/content.js:97-110 | the `has` test followed by the dot-suffix scan returns true exactly when some entry is the host or one of its parent domains |
| AntishortsRules.FirstMatchFrom | js/content.js:157-169 | the `for...in` scan from key `k` returns the first rule whose domain matches the host, and no earlier rule matches; it returns none when no rule from `k` on matches |
| AntishortsRules.ResolveBlockedPaths | js/content.js:157-169 | `getAntishortsBlockedPaths` is undefined exactly when no rule matches, and otherwise returns the paths of the first matching rule |
| AntishortsRules.StaticTableUnnested | js/content.js:144-149 | no domain in the table is a subdomain of another, so the order of the keys cannot change a lookup |
| AntishortsRules.AtMostOneRuleMatches | js/content.js:157-169 | in a table of unnested domains, a host matches at most one rule |
| AntishortsRules.ResolveFindsMatchingRule | js/content.js:157-169 | in a table of unnested domains, the lookup returns the paths of whichever rule matches |
| AntishortsRules.ResolveYouTube | js/content.js:144-169 | `www.youtube.com` resolves to `["/shorts"]` |
| AntishortsRules.ResolveTikTok | js/content.js:144-169 | `m.tiktok.com` resolves to `["/"]` |
| AntishortsRules.ResolveUnlisted | js/content.js:144-169 | `example.com`, which is under none of the table's domains, resolves to undefined (the same fact for every such host is the first clause of `ResolveBlockedPaths`) |
| AntishortsRules.ClearBlockedPage | js/content.js:198-214 | `clearBlockedPage` replaces the page exactly when the host has a rule and the pathname starts with one of its paths; with no rule it never blocks |
| AntishortsRules.TikTokEveryPathBlocked | js/content.js:146 | on TikTok or any of its subdomains, every pathname (all begin with `/`) is blocked |
| AntishortsRules.YouTubePathExamples | js/content.js:148 | `/shorts/abc` on `www.youtube.com` is blocked and `/watch` is not |
| AntishortsRules.HideButtons | js/content.js:175-195 | links are hidden exactly when the host's rule has at least one path, and the selector contains an `a[href^="<path>"]` selector for each such path |
| AntishortsRules.HideButtonsSelectorExact | js/content.js:181 | the selector is exactly the `", "`-join of one `a[href^="<path>"]` selector per rule path, in path order, and nothing else |
| AntishortsRules.InstagramSelector | js/content.js:145 | on `www.instagram.com` the hidden links are those selected by the `/reels` selector and the `/explore` selector, joined by `", "` |
| AntishortsRules.FirstMatchSameDomains | js/content.js:157-169 | the lookup depends only on the rules' domains, never on their paths |
| AntishortsRules.PushShortsKeepsDecisions | js/content.js:316 | appending `/shorts` to the YouTube rule again changes neither the path decision nor whether links are hidden on any host or path |
| AntishortsRules.RepeatedPushKeepsDecisions | js/content.js:316 | any number of `blockYouTubeShorts` runs leave every path decision as the original table's |
| PageBlocker.DomainBlocked | js/content.js:94-140 | in whitelist mode a page is blocked exactly when no whitelisted site matches the host; in blacklist mode exactly when a blacklisted site matches it or, in anti-shorts mode, TikTok does |
| PageBlocker.EmptyWhitelistBlocksEverything | js/content.js:96-115 | whitelist mode with an empty list blocks every host |
| PageBlocker.WhitelistExamples | js/content.js:96-115 | with `github.com` whitelisted, `github.com` and `docs.github.com` pass and `githubx.com` is blocked |
| PageBlocker.ImplicitTikTokExamples | js/content.js:117-137 | in anti-shorts blacklist mode with the blacklist `[]` or `["facebook.com"]`, `tiktok.com` and `m.tiktok.com` are blocked and `tiktokx.com` is not (the general implicit entry is the second clause of `DomainBlocked`) |
| PageBlocker.DomainBlockedIgnoresListOrder | js/content.js:94-140 | the decision depends only on which sites are listed, not on their order or repetition |
| PageBlocker.ReplacePageContent | js/content.js:45-87 | after a call the page is replaced; the call reports a second call exactly when the flag was already set; exactly one of rewriting or logging happens; the flag keeps the page rewritten at most once |
| PageBlocker.ReplaceRewritesOnce | js/content.js:45-87 | `n` calls on a fresh page rewrite it once and log `n - 1` errors |
| PageBlocker.HandleDomainBlocking | js/content.js:94-140 | `handleDomainBlocking` returns the domain decision. When it blocks, the page becomes exactly what `replacePageContent` makes of it, so a fresh page is rewritten and no error is logged. When it does not block, the page is left alone |
| PageBlocker.RunMain | js/content.js:3-41 | `main` stops at a domain block; otherwise it stops when anti-shorts mode is off, then at a path block, and otherwise keeps watching. The page is replaced exactly in the two blocking outcomes, and only once |
| PageBlocker.TikTokNeverSurvives | js/content.js:119-122 | in anti-shorts mode every TikTok page is replaced, by the domain rule or, when TikTok is whitelisted, by the `"/"` path rule |
| PageBlocker.Step | js/content.js:28-40 | the load listener leaves the session unchanged on a replaced page or when `main` stopped early; otherwise it keeps the page and appends exactly the host's hiding selector when its rule has paths, and nothing when it has none; a later `replacePageContent` call (such as the click interceptor's, js/content.js:294) goes through the one-shot guard and changes nothing else |
| PageBlocker.ReplacedIsTerminal | js/content.js:30-32 | once replaced, a page stays replaced, is not rewritten again and gets no more styles, whatever events follow |
| PageBlocker.RewrittenAtMostOnce | js/content.js:45-49 | the flag invariant holds through any events, so the page is rewritten at most once |
| PageBlocker.PageLoadRewritesAtMostOnce | js/content.js:3-87 | a whole page life, from `main` through any events, rewrites the page at most once |
| PageBlocker.SessionTableKeepsPathDecision | js/content.js:24-39 | the YouTube rule grown by repeated `blockYouTubeShorts` runs gives the same path decisions as the original table |
| PageBlocker.PageLoadKeepsPathRules | js/content.js:24-39 | the table `main` leaves for the load listener (the static table, with `/shorts` pushed again on YouTube, js/content.js:316), and every table later events grow from it, blocks exactly the paths the static table blocks |
| PageBlocker.PageLoadHidesPerStaticTable | js/content.js:24-39 | the table `main` leaves for the load listener hides links on exactly the hosts whose static rule has paths |
| ObserverSession.DomainBlockedAsCalled | content.js:69-117 | with the one-argument call, whitelist mode blocks unless a whitelisted site matches, and blacklist mode blocks exactly when a listed site matches, with no TikTok entry added; missing lists read as empty |
| ObserverSession.MissingListsReadAsEmpty | content.js:73 | with no stored whitelist, whitelist mode blocks every host; with no stored blacklist, blacklist mode blocks none |
| ObserverSession.TikTokNotImplicitlyBlacklisted | content.js:11 | with anti-shorts mode on and no blacklist, `tiktok.com` passes this script's domain check but fails the other script's |
| ObserverSession.ScheduleReplacement | content.js:40-61 | each call schedules one more deferred replacement, with no guard, and keeps the scheduling bookkeeping consistent |
| ObserverSession.Antishorts | content.js:20-30 | a blocked path schedules a replacement and hides nothing; otherwise nothing is scheduled and one hiding pass runs when the host's rule has paths, none when it has none |
| ObserverSession.Start | content.js:4-36 | a domain block schedules one replacement and creates no observer; the observer is created exactly for an unblocked page with a truthy anti-shorts flag, and `antishorts()` then runs once |
| ObserverSession.StartIsConsistent | content.js:4-36 | however `main` ends, every scheduled replacement is counted as pending, done or failed, and the page counts as rewritten exactly when its head is gone |
| ObserverSession.StartDefersReplacement | content.js:4-61 | `main` never rewrites the page itself: the replacement runs only from its one-second timer, so after `main` the head is present and nothing has been rewritten |
| ObserverSession.StartRunsOnePass | content.js:20-35 | on a page the domain check lets through in anti-shorts mode, `main` creates the observer and runs exactly one `antishorts()` pass, with its path check, replacement scheduling and link hiding |
| ObserverSession.LegacyPageRewritesAtMostOnce | content.js:4-61 | a whole page life, from `main` through any mutations and timers, rewrites the page at most once |
| ObserverSession.Step | content.js:33-61 | a mutation runs exactly one `antishorts()` pass while observed and does nothing otherwise; the earliest pending timer disconnects any observer and rewrites the page while its head exists, or counts one thrown error once it is gone; with no timer pending nothing happens; a timer never runs `antishorts()` or hides links; a disconnected observer never runs `antishorts()` again; bookkeeping stays consistent |
| ObserverSession.DisconnectedIsTerminal | content.js:48-50 | after disconnection, no later event runs `antishorts()` or hides anything |
| ObserverSession.NoPassAfterReplacement | content.js:44-50 | once a replacement timer fires on an observed page, no further pass runs |
| ObserverSession.RunStaysConsistent | content.js:40-61 | through any events, the page is rewritten at most once; every later fired replacement is counted as an error |
| ObserverSession.BlockedMutationStep | content.js:33 | while observed, a mutation on a blocked path only runs a pass and schedules one more replacement |
| ObserverSession.EachBlockedPassSchedulesAgain | content.js:20-34 | `k` mutation batches on a blocked path before any timer fires leave `k` more replacements pending |
| ObserverSession.BlockedPathTrace | content.js:40-61 | one extra mutation before the timer: two replacements are scheduled, the first rewrites and disconnects, the second throws on the missing head, and a later mutation is ignored |
| ObserverSession.StartOnBlockedPath | content.js:4-36 | an unblocked domain on a blocked path in anti-shorts mode starts observed, with one replacement pending and one pass run |
| ObserverSession.ShortsPageHasBlockedPathTrace | content.js:120-126 | `/shorts/abc` on `www.youtube.com`, with anti-shorts mode stored on, whitelist mode stored off and no lists stored, meets the conditions of the trace above |
| Popup.KeepNonEmpty | popup.js:145 | a string is in the result of `filter(Boolean)` exactly when it is a non-empty entry of the input; how often and in which order is fixed by the next two rows |
| Popup.KeepNonEmptySingleton | popup.js:145 | a one-entry list keeps its entry exactly when it is non-empty; with `KeepNonEmptyAppend` this fixes every result: each non-empty entry once, in order |
| Popup.KeepNonEmptyAppend | popup.js:145 | filtering keeps order: filtering a concatenation filters each part |
| Popup.ParseSites | popup.js:141-146 | every site read from a textarea is non-empty, trimmed and on one line |
| Popup.TrimAllAppend | popup.js:144 | trimming each site commutes with concatenating lists |
| Popup.ParseSitesAppend | popup.js:141-146 | lines are read independently: the sites of `a + "\n" + b` are those of `a` followed by those of `b` |
| Popup.ParseSitesOneLine | popup.js:141-146 | a single line gives its trimmed text, or nothing when it is blank |
| Popup.ParseJoinRoundTrip | popup.js:62-63 | a list of non-empty, trimmed, single-line sites shown with `join("\n")` parses back to the same list |
| Popup.ParseIsStable | popup.js:103-104 | saving, reloading and saving again stores the same lists |
| Popup.DefaultListsWellFormed | popup.js:1-16 | both default lists survive the textarea round trip |
| Popup.Load | popup.js:45-59 | anti-shorts mode is on unless a stored boolean is false; a non-number timestamp becomes `now` and is written back; the whitelist checkbox is on only for a stored `true` |
| Popup.LoadShowsListsOrDefaults | popup.js:57-63 | each textarea shows its stored list, or the default when none is stored; a stored empty list stays empty |
| Popup.OnAntishortsChange | popup.js:71-95 | checking is never undone; unchecking is undone exactly when the timestamp is truthy and less than twelve hours old; a falsy timestamp never blocks |
| Popup.CooldownBoundary | popup.js:80-85 | unchecking is undone one millisecond before twelve hours have passed and accepted at twelve hours |
| Popup.NextEnabledAt | popup.js:107-112 | switching the mode on stamps `now`, switching it off clears the timestamp, and keeping it on leaves the timestamp alone |
| Popup.SaveAsWritten | popup.js:101-126 | a save stores the checkbox state, the timestamp it computed against the mode read at load, both parsed lists and the whitelist checkbox; in the popup it changes only the timestamp, and never the mode read at load |
| Popup.SaveCorrected | popup.js:101-126 | the corrected save stores the same data (checkbox state, timestamp, both parsed lists, whitelist checkbox) and afterwards compares with the mode just saved: while that mode is on, the timestamp is the earlier one or the time it was switched on; otherwise it is cleared; nothing else in the popup changes |
| Popup.Edit | popup.js:71-98 | events other than a save never change storage, the mode read at load or the timestamp |
| Popup.CorrectedSessionKeepsCooldown | popup.js:76-85 | with the corrected save, whenever the saved mode is on, a truthy timestamp is present through any session, so the cooldown can always take effect |
| Popup.OpenPopupArmsCooldown | popup.js:45-55 | opening the popup arms the cooldown, unless a stored timestamp of `0` is read |
| Popup.CooldownBypassAsWritten | popup.js:101-112 | as written, switching off, saving, switching on and saving leaves the mode on with a `null` timestamp, so switching off one millisecond later is accepted; the corrected save stamps the time and undoes it |

## Left out

- DOM effects are left out. This covers the markup written into the body, the
  inline styles, the observer that removes stray `<body>` elements, and the
  `<style>` elements. The model keeps only counters and the selector text.
- The rest of `blockYouTubeShorts` is left out: its selector list, element
  removal, click interception and subtree observer. These act on the DOM only;
  the early YouTube call is reduced to its `push("/shorts")`.
- Storage reads and writes, promises and `main().catch` are left out. Stored
  values are input records.
- `loadSettingsFromStorage` is not defined in `js/content.js` and is not
  modelled; `main` receives its settings as an already-loaded record.
- Timer delays are left out: only the order of fired timers matters.
- `Date.now()` is a parameter.
- Popup events that happen before the storage callback runs are left out. Until
  then `antishortsModeEnabledAt` is `undefined` (popup.js:34), so unchecking is
  accepted at once (popup.js:76). Every modelled session starts from the
  loaded state.
- Browser text normalisation is left out. Setting a textarea's value turns a
  carriage return into a line feed, so a stored site containing `\r` would not
  come back unchanged, although `Popup.ParseJoinRoundTrip` admits it. Strings
  are sequences of Unicode scalar values rather than UTF-16 code units.
- `toggleTextareas` and `setStatusText` are left out. They only show or hide
  elements and messages.
- Popup.Load: does not model timestamps that are not integers (`NaN`,
  fractions), because `typeof` accepts them but the model's timestamps are
  integers.
- Popup.OnAntishortsChange: does not model the wait-until time shown in the
  status message, because it only feeds the message text.

## Findings

| source | as written | input that shows it | evidently intended | confidence | as-written member | corrected member |
|---|---|---|---|---|---|---|
| popup.js:108 | The save handler decides whether anti-shorts mode "was just enabled" by comparing with `antishortsMode`. That variable is assigned only when settings load, never after a save. | Open the popup with the mode on and a timestamp twelve hours old. Uncheck and save, which stores `null`. Check and save: the mode read at load is on, so the timestamp stays `null`. Uncheck again: a falsy timestamp is not checked, so switching off is accepted at once. | Compare with the mode last saved, so re-enabling stamps the time and the twelve-hour cooldown applies | not executed; high | Popup.SaveAsWritten, Popup.CooldownBypassAsWritten | Popup.SaveCorrected, Popup.CorrectedSessionKeepsCooldown |

=== FILE: antishorts_rules.dfy ===
/**
 * The anti-shorts path rules shared by both content scripts: a static table from
 * domain to blocked path prefixes, the first-match lookup over it, the
 * path-prefix test behind `clearBlockedPage` and the CSS selector built by
 * `antishortsHideButtons`.
 */
module AntishortsRules {
  import opened Wrappers
  import opened Text
  import opened Domains

  /** One entry of `antishortsBlockedPaths`: a domain and the path prefixes blocked on it. */
  datatype Rule = Rule(domain: string, paths: seq<string>)

  /** `TIKTOK_DOMAIN`, also added to the blacklist in anti-shorts mode. */
  const TikTokDomain: string := "tiktok.com"
  const YouTubeDomain: string := "youtube.com"
  const ShortsPath: string := "/shorts"

  /**
   * `antishortsBlockedPaths`, in the key insertion order that `for...in`
   * follows for an object whose keys are not integer-like.
   */
  const BlockedPathTable: seq<Rule> := [
    Rule("instagram.com", ["/reels", "/explore"]),
    Rule(TikTokDomain, ["/"]),
    Rule(YouTubeDomain, [ShortsPath])
  ]

  /** Rule `i` is the first rule, from the top, whose domain the host matches. */
  predicate IsFirstMatch(table: seq<Rule>, host: string, i: int) {
    && 0 <= i < |table|
    && IsSubdomainOrItself(table[i].domain, host)
    && forall j :: 0 <= j < i ==> !IsSubdomainOrItself(table[j].domain, host)
  }

  /** The `for...in` loop of `getAntishortsBlockedPaths`, resumed at rule `k`: the index it breaks at. */
  function FirstMatchFrom(table: seq<Rule>, host: string, k: nat): (r: Option<nat>)
    requires k <= |table|
    ensures r.Some? ==> k <= r.value < |table| && IsSubdomainOrItself(table[r.value].domain, host)
    ensures r.Some? ==> forall j :: k <= j < r.value ==> !IsSubdomainOrItself(table[j].domain, host)
    ensures r.None? ==> forall j :: k <= j < |table| ==> !IsSubdomainOrItself(table[j].domain, host)
    decreases |table| - k
  {
    if k == |table| then None
    else if IsSubdomainOrItself(table[k].domain, host) then Some(k)
    else FirstMatchFrom(table, host, k + 1)
  }

  /**
   * `getAntishortsBlockedPaths()`: the path list of the first rule whose domain
   * the host is, or is a dot-subdomain of; `None` (`undefined`) when no rule matches.
   */
  function ResolveBlockedPaths(table: seq<Rule>, host: string): (r: Option<seq<string>>)
    ensures r.None? <==> forall i :: 0 <= i < |table| ==> !IsSubdomainOrItself(table[i].domain, host)
    ensures r.Some? ==> exists i :: IsFirstMatch(table, host, i) && r.value == table[i].paths
  {
    match FirstMatchFrom(table, host, 0)
    case None => None
    case Some(i) =>
      assert IsFirstMatch(table, host, i);
      Some(table[i].paths)
  }

  /** No rule's domain is equal to, or a dot-subdomain of, another rule's domain. */
  predicate DomainsUnnested(table: seq<Rule>) {
    forall i, j :: 0 <= i < |table| && 0 <= j < |table| && i != j ==>
      !IsSubdomainOrItself(table[i].domain, table[j].domain)
  }

  /**
   * `domain` neither is `sub` nor ends with `"." + sub` when the character that
   * would have to be the dot is something else (or is missing).
   */
  lemma NoDotBeforeSuffix(sub: string, domain: string)
    requires |domain| != |sub|
    requires |domain| < |sub| + 1 || domain[|domain| - |sub| - 1] != '.'
    ensures !IsSubdomainOrItself(sub, domain)
  {
  }

  /** The static table's domains are pairwise unnested. */
  lemma StaticTableUnnested()
    ensures DomainsUnnested(BlockedPathTable)
  {
    var t := BlockedPathTable;
    NoDotBeforeSuffix("instagram.com", "tiktok.com");
    NoDotBeforeSuffix("instagram.com", "youtube.com");
    NoDotBeforeSuffix("tiktok.com", "instagram.com");
    NoDotBeforeSuffix("tiktok.com", "youtube.com");
    NoDotBeforeSuffix("youtube.com", "instagram.com");
    NoDotBeforeSuffix("youtube.com", "tiktok.com");
    forall i, j | 0 <= i < |t| && 0 <= j < |t| && i != j
      ensures !IsSubdomainOrItself(t[i].domain, t[j].domain)
    {
    }
  }

  /** With unnested domains, no hostname matches two rules. */
  lemma AtMostOneRuleMatches(table: seq<Rule>, host: string, i: int, j: int)
    requires DomainsUnnested(table)
    requires 0 <= i < |table| && 0 <= j < |table| && i != j
    requires IsSubdomainOrItself(table[i].domain, host)
    ensures !IsSubdomainOrItself(table[j].domain, host)
  {
    if IsSubdomainOrItself(table[j].domain, host) {
      SharedHostMeansNested(table[i].domain, table[j].domain, host);
      assert false;
    }
  }

  /**
   * With unnested domains the first match is the only match, so the lookup
   * returns the paths of whichever rule the host matches, wherever it stands.
   */
  lemma ResolveFindsMatchingRule(table: seq<Rule>, host: string, i: int)
    requires DomainsUnnested(table)
    requires 0 <= i < |table| && IsSubdomainOrItself(table[i].domain, host)
    ensures ResolveBlockedPaths(table, host) == Some(table[i].paths)
  {
    var r := ResolveBlockedPaths(table, host);
    var k :| IsFirstMatch(table, host, k) && r.value == table[k].paths;
    if k != i {
      AtMostOneRuleMatches(table, host, i, k);
    }
  }

  /** YouTube hosts get the Shorts rule. */
  lemma ResolveYouTube()
    ensures ResolveBlockedPaths(BlockedPathTable, "www.youtube.com") == Some([ShortsPath])
  {
    var t, host := BlockedPathTable, "www.youtube.com";
    NoDotBeforeSuffix(t[0].domain, host);
    NoDotBeforeSuffix(t[1].domain, host);
    assert host[3..] == "." + t[2].domain;
    assert FirstMatchFrom(t, host, 2) == Some(2);
    assert FirstMatchFrom(t, host, 1) == Some(2);
    assert FirstMatchFrom(t, host, 0) == Some(2);
  }

  /** TikTok's subdomains get TikTok's rule. */
  lemma ResolveTikTok()
    ensures ResolveBlockedPaths(BlockedPathTable, "m.tiktok.com") == Some(["/"])
  {
    var t, host := BlockedPathTable, "m.tiktok.com";
    NoDotBeforeSuffix(t[0].domain, host);
    assert host[1..] == "." + t[1].domain;
    assert FirstMatchFrom(t, host, 1) == Some(1);
    assert FirstMatchFrom(t, host, 0) == Some(1);
  }

  /** A host under none of the table's domains gets no rule. */
  lemma ResolveUnlisted()
    ensures ResolveBlockedPaths(BlockedPathTable, "example.com") == None
  {
    NoDotBeforeSuffix("instagram.com", "example.com");
    NoDotBeforeSuffix("tiktok.com", "example.com");
    assert !IsSubdomainOrItself("youtube.com", "example.com") by {
      assert "example.com"[0] != "youtube.com"[0];
    }
  }

  /** Some path of the list is a prefix of `pathname`. */
  predicate AnyPrefixOf(paths: seq<string>, pathname: string) {
    exists p :: p in paths && StartsWith(pathname, p)
  }

  /** The decision of `clearBlockedPage`: a rule applies and one of its paths prefixes `pathname`. */
  predicate PathBlocked(table: seq<Rule>, host: string, pathname: string) {
    var resolved := ResolveBlockedPaths(table, host);
    resolved.Some? && AnyPrefixOf(resolved.value, pathname)
  }

  /**
   * `clearBlockedPage()` without its call to `replacePageContent`: the early
   * return on a missing or empty list, then the scan for a path `pathname`
   * starts with.
   */
  method ClearBlockedPage(table: seq<Rule>, host: string, pathname: string) returns (blocked: bool)
    ensures blocked <==> PathBlocked(table, host, pathname)
    ensures ResolveBlockedPaths(table, host).None? ==> !blocked
  {
    var resolved := ResolveBlockedPaths(table, host);
    if resolved.None? || |resolved.value| == 0 {
      return false;
    }
    var paths := resolved.value;
    var i := 0;
    while i < |paths|
      invariant 0 <= i <= |paths|
      invariant forall j :: 0 <= j < i ==> !StartsWith(pathname, paths[j])
    {
      if StartsWith(pathname, paths[i]) {
        assert paths[i] in paths;
        return true;
      }
      i := i + 1;
    }
    return false;
  }

  /** TikTok's rule is `"/"`, so every path of every TikTok host is blocked. */
  lemma TikTokEveryPathBlocked(host: string, pathname: string)
    requires IsSubdomainOrItself(TikTokDomain, host)
    requires StartsWith(pathname, "/")
    ensures PathBlocked(BlockedPathTable, host, pathname)
  {
    StaticTableUnnested();
    ResolveFindsMatchingRule(BlockedPathTable, host, 1);
    assert "/" in BlockedPathTable[1].paths;
  }

  /** On YouTube the Shorts pages are blocked and the watch page is not. */
  lemma YouTubePathExamples()
    ensures PathBlocked(BlockedPathTable, "www.youtube.com", "/shorts/abc")
    ensures !PathBlocked(BlockedPathTable, "www.youtube.com", "/watch")
  {
    ResolveYouTube();
    assert "/shorts/abc"[..|ShortsPath|] == ShortsPath;
    assert ShortsPath in [ShortsPath];
    assert !StartsWith("/watch", "/shorts") by { assert |"/watch"| < |"/shorts"|; }
  }

  /** The selector of one path: anchors whose `href` starts with it. */
  function LinkSelector(path: string): string {
    "a[href^=\"" + path + "\"]"
  }

  /** `paths.map((p) => ...)`: one link selector per path, in order. */
  function LinkSelectors(paths: seq<string>): (r: seq<string>)
    ensures |r| == |paths| && forall i :: 0 <= i < |paths| ==> r[i] == LinkSelector(paths[i])
  {
    seq(|paths|, i requires 0 <= i < |paths| => LinkSelector(paths[i]))
  }

  /** Every piece of a join occurs in the joined string. */
  lemma {:induction false} JoinContainsEach(xs: seq<string>, sep: string, i: int)
    requires 0 <= i < |xs|
    ensures Contains(Join(xs, sep), xs[i])
  {
    if |xs| == 1 {
      ContainsAfterPrefix([], xs[0], []);
      assert [] + xs[0] + [] == xs[0];
    } else if i == 0 {
      ContainsAfterPrefix([], xs[0], sep + Join(xs[1..], sep));
      assert [] + xs[0] + (sep + Join(xs[1..], sep)) == Join(xs, sep);
    } else {
      JoinContainsEach(xs[1..], sep, i - 1);
      ContainsInSuffix(xs[0] + sep, Join(xs[1..], sep), xs[i]);
    }
  }

  /** An occurrence in the tail of a string is an occurrence in the string. */
  lemma {:induction false} ContainsInSuffix(pre: string, s: string, sub: string)
    requires Contains(s, sub)
    ensures Contains(pre + s, sub)
    decreases |pre|
  {
    if |pre| > 0 {
      assert (pre + s)[1..] == pre[1..] + s;
      ContainsInSuffix(pre[1..], s, sub);
    } else {
      assert pre + s == s;
    }
  }

  /** What `antishortsHideButtons` does: nothing, or hide the links matched by a selector. */
  datatype HideOutcome = NothingToHide | HideLinks(selector: string)

  /**
   * `antishortsHideButtons()`: returns `false` (nothing to hide) unless the host
   * has a rule with at least one path; otherwise hides the links matched by
   * the `", "`-join of one link selector per path of the rule, in path order,
   * and nothing else.
   */
  function HideButtons(table: seq<Rule>, host: string): (r: HideOutcome)
    ensures r.HideLinks? <==> ResolveBlockedPaths(table, host).Some? && |ResolveBlockedPaths(table, host).value| > 0
    ensures r.HideLinks? ==> forall p :: p in ResolveBlockedPaths(table, host).value ==> Contains(r.selector, LinkSelector(p))
  {
    var resolved := ResolveBlockedPaths(table, host);
    if resolved.None? || |resolved.value| == 0 then NothingToHide
    else
      var paths := resolved.value;
      var selector := Join(LinkSelectors(paths), ", ");
      assert forall p :: p in paths ==> Contains(selector, LinkSelector(p)) by {
        forall p | p in paths
          ensures Contains(selector, LinkSelector(p))
        {
          var i :| 0 <= i < |paths| && paths[i] == p;
          JoinContainsEach(LinkSelectors(paths), ", ", i);
        }
      }
      HideLinks(selector)
  }

  /**
   * The selector holds nothing but the rule's link selectors: it is the
   * `", "`-join of one `a[href^="<path>"]` selector per path, in path order.
   */
  lemma HideButtonsSelectorExact(table: seq<Rule>, host: string)
    requires HideButtons(table, host).HideLinks?
    ensures var paths := ResolveBlockedPaths(table, host).value;
      exists sels: seq<string> ::
        && |sels| == |paths|
        && (forall i :: 0 <= i < |paths| ==> sels[i] == LinkSelector(paths[i]))
        && HideButtons(table, host).selector == Join(sels, ", ")
  {
    var paths := ResolveBlockedPaths(table, host).value;
    var sels := LinkSelectors(paths);
    assert HideButtons(table, host).selector == Join(sels, ", ");
  }

  /** The Instagram rule hides both of its link kinds in one comma-separated rule. */
  lemma InstagramSelector()
    ensures HideButtons(BlockedPathTable, "www.instagram.com") == HideLinks(LinkSelector("/reels") + ", " + LinkSelector("/explore"))
  {
    var t, host := BlockedPathTable, "www.instagram.com";
    assert host[3..] == "." + t[0].domain;
    assert FirstMatchFrom(t, host, 0) == Some(0);
    var selectors := LinkSelectors(t[0].paths);
    assert selectors == [LinkSelector("/reels"), LinkSelector("/explore")];
    assert selectors[1..] == [LinkSelector("/explore")];
    assert ResolveBlockedPaths(t, host) == Some(t[0].paths);
    assert Join(selectors, ", ") == LinkSelector("/reels") + ", " + LinkSelector("/explore");
  }

  /** One rule after `antishortsBlockedPaths["youtube.com"].push("/shorts")`. */
  function PushShortsRule(rule: Rule): Rule {
    if rule.domain == YouTubeDomain then rule.(paths := rule.paths + [ShortsPath]) else rule
  }

  /** The table after one call of `blockYouTubeShorts`, which appends `"/shorts"` to YouTube's paths. */
  function PushShorts(table: seq<Rule>): seq<Rule> {
    seq(|table|, i requires 0 <= i < |table| => PushShortsRule(table[i]))
  }

  /** The table after `n` calls of `blockYouTubeShorts`. */
  function PushShortsTimes(table: seq<Rule>, n: nat): seq<Rule> {
    if n == 0 then table else PushShorts(PushShortsTimes(table, n - 1))
  }

  /** Every YouTube rule of the table already lists `"/shorts"`. */
  predicate ShortsListed(table: seq<Rule>) {
    forall i :: 0 <= i < |table| && table[i].domain == YouTubeDomain ==> ShortsPath in table[i].paths
  }

  /** The lookup sees only the domains, which pushing leaves alone. */
  lemma {:induction false} FirstMatchSameDomains(t1: seq<Rule>, t2: seq<Rule>, host: string, k: nat)
    requires |t1| == |t2| && k <= |t1|
    requires forall i :: 0 <= i < |t1| ==> t1[i].domain == t2[i].domain
    ensures FirstMatchFrom(t1, host, k) == FirstMatchFrom(t2, host, k)
    decreases |t1| - k
  {
    if k < |t1| {
      FirstMatchSameDomains(t1, t2, host, k + 1);
    }
  }

  /**
   * Appending `"/shorts"` where it is already listed changes neither the path
   * decision nor whether links are hidden, and keeps it listed.
   */
  lemma PushShortsKeepsDecisions(table: seq<Rule>, host: string, pathname: string)
    requires ShortsListed(table)
    ensures ShortsListed(PushShorts(table))
    ensures PathBlocked(PushShorts(table), host, pathname) == PathBlocked(table, host, pathname)
    ensures HideButtons(PushShorts(table), host).HideLinks? == HideButtons(table, host).HideLinks?
  {
    var pushed := PushShorts(table);
    FirstMatchSameDomains(table, pushed, host, 0);
    match FirstMatchFrom(table, host, 0)
    case None =>
    case Some(i) =>
      var before := table[i].paths;
      var after := pushed[i].paths;
      assert ResolveBlockedPaths(table, host) == Some(before);
      assert ResolveBlockedPaths(pushed, host) == Some(after);
      assert forall p :: p in after <==> p in before;
  }

  /** However many times `blockYouTubeShorts` runs, the static table's path decisions stay as they were. */
  lemma {:induction false} RepeatedPushKeepsDecisions(n: nat, host: string, pathname: string)
    ensures ShortsListed(PushShortsTimes(BlockedPathTable, n))
    ensures PathBlocked(PushShortsTimes(BlockedPathTable, n), host, pathname) == PathBlocked(BlockedPathTable, host, pathname)
  {
    if n == 0 {
      assert BlockedPathTable[2].paths == [ShortsPath];
      assert ShortsListed(BlockedPathTable);
    } else {
      RepeatedPushKeepsDecisions(n - 1, host, pathname);
      PushShortsKeepsDecisions(PushShortsTimes(BlockedPathTable, n - 1), host, pathname);
    }
  }
}

=== FILE: domains.dfy ===
/**
 * Domain matching shared by both content scripts: a hostname matches a
 * configured domain when it is that domain or one of its dot-subdomains.
 */
module Domains {
  import opened Text

  /** `isSubdomainOrItself(sub, domain)`: `domain` is `sub` or ends with `"." + sub`. */
  predicate IsSubdomainOrItself(sub: string, domain: string) {
    domain == sub || EndsWith(domain, "." + sub)
  }

  /**
   * Reference reading of the same relation: `domain` is `sub` itself, or `sub`
   * preceded by some (possibly empty) label text and a dot.
   */
  lemma SubdomainMeansDottedPrefix(sub: string, domain: string)
    ensures IsSubdomainOrItself(sub, domain) <==> (domain == sub || exists k :: domain == k + "." + sub)
  {
    if EndsWith(domain, "." + sub) {
      var k := domain[..|domain| - |sub| - 1];
      assert domain == k + "." + sub;
    }
    if k :| domain == k + "." + sub {
      assert domain[|domain| - |sub| - 1..] == "." + sub;
    }
  }

  /** A look-alike that merely ends with the domain's text does not match it. */
  lemma LookAlikeDoesNotMatch()
    ensures IsSubdomainOrItself("github.com", "github.com")
    ensures IsSubdomainOrItself("github.com", "docs.github.com")
    ensures !IsSubdomainOrItself("github.com", "githubx.com")
    ensures !IsSubdomainOrItself("github.com", "xgithub.com")
  {
    assert "docs.github.com"[4..] == ".github.com";
    assert "githubx.com"[0] != "."[0];
    assert "xgithub.com" != "github.com" by { assert "xgithub.com"[0] != "github.com"[0]; }
  }

  /** A subdomain of a subdomain of `a` is a subdomain of `a`. */
  lemma SubdomainTransitive(a: string, b: string, c: string)
    requires IsSubdomainOrItself(a, b) && IsSubdomainOrItself(b, c)
    ensures IsSubdomainOrItself(a, c)
  {
    if c != b && b != a {
      assert EndsWith("." + b, "." + a) by {
        assert ("." + b)[|"." + b| - |"." + a|..] == b[|b| - |"." + a|..];
      }
      EndsWithTransitive(c, "." + b, "." + a);
    }
  }

  /**
   * When one hostname matches two domains, one of those domains is itself a
   * subdomain of the other: domains that are not nested never share a host.
   */
  lemma SharedHostMeansNested(a: string, b: string, host: string)
    requires IsSubdomainOrItself(a, host) && IsSubdomainOrItself(b, host)
    ensures IsSubdomainOrItself(a, b) || IsSubdomainOrItself(b, a)
  {
    if host != a && host != b {
      if |a| <= |b| {
        SuffixesNest(host, "." + a, "." + b);
        assert EndsWith(b, "." + a) || b == a by {
          assert ("." + b)[|"." + b| - |"." + a|..] == "." + a;
          if |a| < |b| {
            assert b[|b| - |"." + a|..] == ("." + b)[|"." + b| - |"." + a|..];
          } else {
            assert b == ("." + b)[1..] && a == ("." + a)[1..];
          }
        }
      } else {
        SuffixesNest(host, "." + b, "." + a);
        assert a[|a| - |"." + b|..] == ("." + a)[|"." + a| - |"." + b|..];
      }
    }
  }

  /** Some entry of `sites` is the host or one of its parent domains. */
  predicate MatchesAny(sites: seq<string>, host: string) {
    exists d :: d in sites && IsSubdomainOrItself(d, host)
  }

  /** Matching reads `sites` as a set: order and repetition do not change the outcome. */
  lemma MatchesAnyIgnoresOrder(xs: seq<string>, ys: seq<string>, host: string)
    requires forall d :: d in xs <==> d in ys
    ensures MatchesAny(xs, host) <==> MatchesAny(ys, host)
  {
  }

  /** Adding a domain to the list matches exactly the hosts it or the old list match. */
  lemma MatchesAnyAppend(xs: seq<string>, extra: string, host: string)
    ensures MatchesAny(xs + [extra], host) <==> MatchesAny(xs, host) || IsSubdomainOrItself(extra, host)
  {
    if IsSubdomainOrItself(extra, host) {
      assert extra in xs + [extra];
    }
    if MatchesAny(xs, host) {
      var d :| d in xs && IsSubdomainOrItself(d, host);
      assert d in xs + [extra];
    }
  }

  /**
   * The lookup inside `handleDomainBlocking`: first `set.has(host)`, then a scan
   * of the set for an entry the host ends with after a dot.
   */
  method ScanForDomain(sites: seq<string>, host: string) returns (found: bool)
    ensures found <==> MatchesAny(sites, host)
  {
    if host in sites {
      return true;
    }
    var i := 0;
    while i < |sites|
      invariant 0 <= i <= |sites|
      invariant forall j :: 0 <= j < i ==> !EndsWith(host, "." + sites[j])
    {
      if EndsWith(host, "." + sites[i]) {
        assert sites[i] in sites;
        return true;
      }
      i := i + 1;
    }
    return false;
  }
}

=== FILE: observer_session.dfy ===
/**
 * The other content script (`content.js`): its one-argument call of
 * `handleDomainBlocking`, the `antishorts()` pass re-run by a DOM mutation
 * observer, and the deferred, unguarded `replacePageContent` that disconnects
 * that observer when its timer fires. Timers and mutations are explicit events.
 */
module ObserverSession {
  import opened Wrappers
  import opened Text
  import opened Domains
  import opened AntishortsRules
  import PageBlocker

  /** The keys this script reads from `chrome.storage.sync`; `None` for a key never stored. */
  datatype StoredData = StoredData(
    antishortsMode: Option<bool>,
    whitelistMode: Option<bool>,
    whitelistSites: Option<seq<string>>,
    blacklistSites: Option<seq<string>>)

  /** JavaScript truthiness of a stored flag: `undefined` and `false` are falsy. */
  predicate Truthy(flag: Option<bool>) {
    flag == Some(true)
  }

  /**
   * `handleDomainBlocking(data.whitelistMode)`: the second parameter,
   * `antishortsMode`, is never passed and so is `undefined`; a missing site
   * list is read as `[]`. The decision is that of the other script with
   * anti-shorts mode off.
   */
  function DomainBlockedAsCalled(data: StoredData, host: string): (r: bool)
    ensures Truthy(data.whitelistMode) ==>
      (r <==> forall d :: d in data.whitelistSites.GetOr([]) ==> !IsSubdomainOrItself(d, host))
    ensures !Truthy(data.whitelistMode) ==>
      (r <==> exists d :: d in data.blacklistSites.GetOr([]) && IsSubdomainOrItself(d, host))
  {
    var settings := PageBlocker.Settings(
      antishortsMode := false,
      whitelistMode := Truthy(data.whitelistMode),
      blacklistSites := data.blacklistSites.GetOr([]),
      whitelistSites := data.whitelistSites.GetOr([]));
    PageBlocker.DomainBlocked(settings, host)
  }

  /** A missing whitelist blocks every host in whitelist mode; a missing blacklist blocks none in blacklist mode. */
  lemma MissingListsReadAsEmpty(data: StoredData, host: string)
    ensures Truthy(data.whitelistMode) && data.whitelistSites.None? ==> DomainBlockedAsCalled(data, host)
    ensures !Truthy(data.whitelistMode) && data.blacklistSites.None? ==> !DomainBlockedAsCalled(data, host)
  {
  }

  /**
   * Unlike the early-running script, this one never adds TikTok to the
   * blacklist: with anti-shorts mode stored as on and no blacklist, TikTok
   * passes the domain check here but is blocked there.
   */
  lemma TikTokNotImplicitlyBlacklisted(data: StoredData)
    requires data == StoredData(Some(true), Some(false), None, None)
    ensures !DomainBlockedAsCalled(data, TikTokDomain)
    ensures PageBlocker.DomainBlocked(PageBlocker.Settings(true, false, [], []), TikTokDomain)
  {
  }

  /** The main observer: not created, observing `document.body`, or disconnected for good. */
  datatype Observer = NoObserver | Observing | Disconnected

  /**
   * The page as this script sees it: the observer, the replacement timers
   * scheduled so far and those not yet fired, whether `document.head` still
   * exists, the page rewrites done, the timer callbacks that threw, and how
   * many times `antishorts()` and its link-hiding pass ran.
   */
  datatype LegacyState = LegacyState(
    observer: Observer,
    scheduled: nat,
    pending: nat,
    headPresent: bool,
    rewrites: nat,
    errorsThrown: nat,
    antishortsRuns: nat,
    hidePasses: nat)

  const InitialState: LegacyState := LegacyState(NoObserver, 0, 0, true, 0, 0, 0, 0)

  /**
   * Every scheduled replacement is pending or has fired; of the fired ones only
   * the first, while the head still existed, rewrote the page.
   */
  predicate Consistent(st: LegacyState) {
    && st.scheduled == st.pending + st.rewrites + st.errorsThrown
    && st.rewrites == (if st.headPresent then 0 else 1)
  }

  /** `replacePageContent()`: only schedules the deferred replacement; there is no guard. */
  function ScheduleReplacement(st: LegacyState): (r: LegacyState)
    ensures r.pending == st.pending + 1 && r.scheduled == st.scheduled + 1
    ensures Consistent(st) ==> Consistent(r)
  {
    st.(scheduled := st.scheduled + 1, pending := st.pending + 1)
  }

  /**
   * `antishorts()` on the current path: `clearBlockedPage()` and, only when it
   * did not block, `antishortsHideButtons()`, which hides links exactly when
   * the host's rule has paths.
   */
  function Antishorts(st: LegacyState, host: string, pathname: string): (r: LegacyState)
    ensures r.antishortsRuns == st.antishortsRuns + 1 && r.observer == st.observer
    ensures PathBlocked(BlockedPathTable, host, pathname) ==> r.pending == st.pending + 1 && r.hidePasses == st.hidePasses
    ensures !PathBlocked(BlockedPathTable, host, pathname) ==>
      r.pending == st.pending && r.hidePasses == st.hidePasses + (if HideButtons(BlockedPathTable, host).HideLinks? then 1 else 0)
    ensures Consistent(st) ==> Consistent(r)
  {
    var ran := st.(antishortsRuns := st.antishortsRuns + 1);
    if PathBlocked(BlockedPathTable, host, pathname) then ScheduleReplacement(ran)
    else if HideButtons(BlockedPathTable, host).HideLinks? then ran.(hidePasses := ran.hidePasses + 1)
    else ran
  }

  /**
   * `main()` once the flags are read: the domain check first (scheduling a
   * replacement when it blocks); then, in anti-shorts mode only, the observer
   * is created and `antishorts()` runs once.
   */
  function Start(data: StoredData, host: string, pathname: string): (r: LegacyState)
    ensures DomainBlockedAsCalled(data, host) ==> r.observer == NoObserver && r.pending == 1 && r.antishortsRuns == 0
    ensures r.observer == Observing <==> !DomainBlockedAsCalled(data, host) && Truthy(data.antishortsMode)
    ensures r.antishortsRuns == (if r.observer == Observing then 1 else 0)
  {
    if DomainBlockedAsCalled(data, host) then ScheduleReplacement(InitialState)
    else if !Truthy(data.antishortsMode) then InitialState
    else Antishorts(InitialState.(observer := Observing), host, pathname)
  }

  /** What reaches the script after `main`. */
  datatype LegacyEvent =
    | Mutation(pathname: string)  // a batch of DOM mutations, with the path the page shows then
    | TimerFires                  // the earliest pending one-second replacement timer runs

  /**
   * One event. A mutation re-runs `antishorts()` only while observed. A timer
   * disconnects the observer if one was created, then removes the head and
   * rewrites the body; once the head is gone, `document.head.remove()` throws
   * and the callback stops there.
   */
  function Step(st: LegacyState, host: string, e: LegacyEvent): (r: LegacyState)
    ensures Consistent(st) ==> Consistent(r)
    ensures st.observer == Disconnected ==> r.observer == Disconnected && r.antishortsRuns == st.antishortsRuns
    ensures e == TimerFires && st.pending > 0 && st.observer != NoObserver ==> r.observer == Disconnected
    ensures st.observer == NoObserver ==> r.observer == NoObserver && r.antishortsRuns == st.antishortsRuns
    ensures r.scheduled >= st.scheduled
    ensures e.Mutation? && st.observer == Observing ==> r == Antishorts(st, host, e.pathname)
    ensures e.Mutation? && st.observer != Observing ==> r == st
    ensures e == TimerFires && st.pending > 0 && st.headPresent ==>
      r.rewrites == st.rewrites + 1 && !r.headPresent && r.pending == st.pending - 1 && r.errorsThrown == st.errorsThrown
    ensures e == TimerFires && st.pending > 0 && !st.headPresent ==>
      r.rewrites == st.rewrites && r.errorsThrown == st.errorsThrown + 1 && r.pending == st.pending - 1
    ensures e == TimerFires && st.pending == 0 ==> r == st
    ensures e == TimerFires ==> r.antishortsRuns == st.antishortsRuns && r.hidePasses == st.hidePasses
  {
    match e
    case Mutation(pathname) =>
      if st.observer == Observing then Antishorts(st, host, pathname) else st
    case TimerFires =>
      if st.pending == 0 then st
      else
        var disconnected := st.(
          pending := st.pending - 1,
          observer := if st.observer == NoObserver then NoObserver else Disconnected);
        if st.headPresent then disconnected.(headPresent := false, rewrites := st.rewrites + 1)
        else disconnected.(errorsThrown := st.errorsThrown + 1)
  }

  /** A sequence of events, in order. */
  function Run(st: LegacyState, host: string, events: seq<LegacyEvent>): LegacyState
    decreases |events|
  {
    if |events| == 0 then st else Run(Step(st, host, events[0]), host, events[1..])
  }

  /** Once disconnected, no event runs `antishorts()` again. */
  lemma {:induction false} DisconnectedIsTerminal(st: LegacyState, host: string, events: seq<LegacyEvent>)
    requires st.observer == Disconnected
    ensures Run(st, host, events).observer == Disconnected
    ensures Run(st, host, events).antishortsRuns == st.antishortsRuns
    ensures Run(st, host, events).hidePasses == st.hidePasses
    decreases |events|
  {
    if |events| > 0 {
      DisconnectedIsTerminal(Step(st, host, events[0]), host, events[1..]);
    }
  }

  /** After the first replacement timer of an observed page fires, `antishorts()` never runs again. */
  lemma NoPassAfterReplacement(st: LegacyState, host: string, events: seq<LegacyEvent>)
    requires st.observer == Observing && st.pending > 0
    ensures Run(Step(st, host, TimerFires), host, events).antishortsRuns == st.antishortsRuns
  {
    DisconnectedIsTerminal(Step(st, host, TimerFires), host, events);
  }

  /** Along any run every scheduled replacement is accounted for and the page is rewritten at most once. */
  lemma {:induction false} RunStaysConsistent(st: LegacyState, host: string, events: seq<LegacyEvent>)
    requires Consistent(st)
    ensures Consistent(Run(st, host, events))
    ensures Run(st, host, events).rewrites <= 1
    decreases |events|
  {
    if |events| > 0 {
      RunStaysConsistent(Step(st, host, events[0]), host, events[1..]);
    }
  }

  /** `main` leaves the bookkeeping consistent, whichever way it ends. */
  lemma StartIsConsistent(data: StoredData, host: string, pathname: string)
    ensures Consistent(Start(data, host, pathname))
  {
    if !DomainBlockedAsCalled(data, host) && Truthy(data.antishortsMode) {
      assert Consistent(InitialState.(observer := Observing));
    }
  }

  /** `main` only schedules the replacement: the head is still there and nothing is rewritten yet. */
  lemma StartDefersReplacement(data: StoredData, host: string, pathname: string)
    ensures Start(data, host, pathname).headPresent && Start(data, host, pathname).rewrites == 0
  {
    if !DomainBlockedAsCalled(data, host) && Truthy(data.antishortsMode) {
      assert InitialState.(observer := Observing).headPresent;
    }
  }

  /** On a page the domain check lets through in anti-shorts mode, `main` runs exactly one observed `antishorts()` pass. */
  lemma StartRunsOnePass(data: StoredData, host: string, pathname: string)
    requires !DomainBlockedAsCalled(data, host) && Truthy(data.antishortsMode)
    ensures Start(data, host, pathname) == Antishorts(InitialState.(observer := Observing), host, pathname)
  {
  }

  /** A whole page life, from `main` through any events, rewrites the page at most once. */
  lemma LegacyPageRewritesAtMostOnce(data: StoredData, host: string, pathname: string, events: seq<LegacyEvent>)
    ensures Run(Start(data, host, pathname), host, events).rewrites <= 1
  {
    StartIsConsistent(data, host, pathname);
    RunStaysConsistent(Start(data, host, pathname), host, events);
  }


  /** While observed, a mutation on a blocked path runs `antishorts()` and schedules one more replacement, nothing else. */
  lemma BlockedMutationStep(st: LegacyState, host: string, path: string)
    requires st.observer == Observing && PathBlocked(BlockedPathTable, host, path)
    ensures Step(st, host, Mutation(path)) ==
      st.(scheduled := st.scheduled + 1, pending := st.pending + 1, antishortsRuns := st.antishortsRuns + 1)
  {
  }

  /** `k` mutation batches on the same path. */
  function Mutations(pathname: string, k: nat): (r: seq<LegacyEvent>)
    ensures |r| == k && forall i :: 0 <= i < k ==> r[i] == Mutation(pathname)
  {
    if k == 0 then [] else [Mutation(pathname)] + Mutations(pathname, k - 1)
  }

  /**
   * No idempotence guard: while observed, each mutation on a blocked path
   * schedules one more replacement, so `k` batches before the timer leave `k`
   * more pending.
   */
  lemma {:induction false} EachBlockedPassSchedulesAgain(st: LegacyState, host: string, pathname: string, k: nat)
    requires st.observer == Observing && PathBlocked(BlockedPathTable, host, pathname)
    ensures Run(st, host, Mutations(pathname, k)).pending == st.pending + k
    ensures Run(st, host, Mutations(pathname, k)).observer == Observing
    decreases k
  {
    if k > 0 {
      var next := Step(st, host, Mutation(pathname));
      assert Mutations(pathname, k)[1..] == Mutations(pathname, k - 1);
      EachBlockedPassSchedulesAgain(next, host, pathname, k - 1);
    }
  }

  /**
   * A blocked path with one mutation batch before the timer: two replacements
   * are scheduled, the first rewrites the page and disconnects the observer,
   * the second throws on the missing head, and a later mutation is ignored.
   * The early-running script's guard would have rewritten once and scheduled
   * nothing more.
   */
  lemma BlockedPathTrace(st: LegacyState, host: string, path: string)
    requires st.observer == Observing && st.headPresent && st.pending == 1
    requires PathBlocked(BlockedPathTable, host, path)
    ensures var s1 := Step(st, host, Mutation(path));
      var s2 := Step(s1, host, TimerFires);
      var s3 := Step(s2, host, TimerFires);
      var s4 := Step(s3, host, Mutation(path));
      && s1.scheduled == st.scheduled + 1 && s1.pending == 2 && s1.rewrites == st.rewrites
      && s2.observer == Disconnected && s2.rewrites == st.rewrites + 1
      && s3.errorsThrown == st.errorsThrown + 1 && s3.rewrites == st.rewrites + 1 && s3.pending == 0
      && s4 == s3 && s4.antishortsRuns == st.antishortsRuns + 1
  {
    BlockedMutationStep(st, host, path);
  }

  /** On a blocked path in anti-shorts mode, `main` leaves the page observed with one replacement pending. */
  lemma StartOnBlockedPath(data: StoredData, host: string, path: string)
    requires Truthy(data.antishortsMode) && !DomainBlockedAsCalled(data, host)
    requires PathBlocked(BlockedPathTable, host, path)
    ensures Start(data, host, path) == LegacyState(Observing, 1, 1, true, 0, 0, 1, 0)
  {
  }

  /** Both lemmas above apply on YouTube's Shorts pages when anti-shorts mode is on and nothing is blacklisted. */
  lemma ShortsPageHasBlockedPathTrace(data: StoredData)
    requires data == StoredData(Some(true), Some(false), None, None)
    ensures Truthy(data.antishortsMode) && !DomainBlockedAsCalled(data, "www.youtube.com")
    ensures PathBlocked(BlockedPathTable, "www.youtube.com", "/shorts/abc")
  {
    YouTubePathExamples();
    MissingListsReadAsEmpty(data, "www.youtube.com");
  }
}

=== FILE: page_blocker.dfy ===
/**
 * The early-running content script (`js/content.js`): the whole-page blocking
 * decision, the `contentReplaced` one-shot guard of `replacePageContent`, and
 * the order in which `main` consults the domain and path rules. Page state is
 * an immutable record; the DOM writes themselves are reduced to counters.
 */
module PageBlocker {
  import opened Text
  import opened Domains
  import opened AntishortsRules

  /**
   * The settings object `main` receives. Its loader is not part of this model;
   * a missing site list reads as the empty list, as `new Set(undefined)` does,
   * and a missing flag as `false`.
   */
  datatype Settings = Settings(
    antishortsMode: bool,
    whitelistMode: bool,
    blacklistSites: seq<string>,
    whitelistSites: seq<string>)

  /** The set `handleDomainBlocking` builds in blacklist mode: the configured sites, plus TikTok in anti-shorts mode. */
  function EffectiveBlacklist(s: Settings): seq<string> {
    s.blacklistSites + (if s.antishortsMode then [TikTokDomain] else [])
  }

  /**
   * Whether `handleDomainBlocking` replaces the page. In whitelist mode: unless
   * the host is, or is a dot-subdomain of, a whitelisted site. In blacklist
   * mode: when it is one of a blacklisted site or, in anti-shorts mode, of TikTok.
   */
  function DomainBlocked(s: Settings, host: string): (r: bool)
    ensures s.whitelistMode ==> (r <==> forall d :: d in s.whitelistSites ==> !IsSubdomainOrItself(d, host))
    ensures !s.whitelistMode ==>
      (r <==> (exists d :: d in s.blacklistSites && IsSubdomainOrItself(d, host))
              || (s.antishortsMode && IsSubdomainOrItself(TikTokDomain, host)))
  {
    if s.whitelistMode then !MatchesAny(s.whitelistSites, host)
    else
      MatchesAnyAppend(s.blacklistSites, TikTokDomain, host);
      MatchesAny(EffectiveBlacklist(s), host)
  }

  /** An empty whitelist lets no host through. */
  lemma EmptyWhitelistBlocksEverything(s: Settings, host: string)
    requires s.whitelistMode && s.whitelistSites == []
    ensures DomainBlocked(s, host)
  {
  }

  /** The whitelist examples: the site and its subdomains pass, a look-alike does not. */
  lemma WhitelistExamples(s: Settings)
    requires s.whitelistMode && s.whitelistSites == ["github.com"]
    ensures !DomainBlocked(s, "github.com")
    ensures !DomainBlocked(s, "docs.github.com")
    ensures DomainBlocked(s, "githubx.com")
  {
    LookAlikeDoesNotMatch();
  }

  /** In anti-shorts mode TikTok is blacklisted even when the configured blacklist is not about it. */
  lemma ImplicitTikTokExamples(s: Settings)
    requires !s.whitelistMode && s.antishortsMode
    requires s.blacklistSites == [] || s.blacklistSites == ["facebook.com"]
    ensures DomainBlocked(s, "tiktok.com")
    ensures DomainBlocked(s, "m.tiktok.com")
    ensures !DomainBlocked(s, "tiktokx.com")
  {
    assert "m.tiktok.com"[1..] == "." + TikTokDomain;
    assert !IsSubdomainOrItself(TikTokDomain, "tiktokx.com") by {
      assert "tiktokx.com"[0] != '.';
      assert "tiktokx.com" != TikTokDomain by { assert |"tiktokx.com"| != |TikTokDomain|; }
    }
    assert !IsSubdomainOrItself("facebook.com", "tiktokx.com") by {
      assert "tiktokx.com" != "facebook.com" by { assert "tiktokx.com"[0] != "facebook.com"[0]; }
    }
  }

  /** The decision depends on the lists only as sets: reordering or repeating entries changes nothing. */
  lemma DomainBlockedIgnoresListOrder(s: Settings, t: Settings, host: string)
    requires s.antishortsMode == t.antishortsMode && s.whitelistMode == t.whitelistMode
    requires forall d :: d in s.blacklistSites <==> d in t.blacklistSites
    requires forall d :: d in s.whitelistSites <==> d in t.whitelistSites
    ensures DomainBlocked(s, host) == DomainBlocked(t, host)
  {
  }

  /**
   * What the page has undergone: `replacePageContent.contentReplaced`, the
   * number of times its content was rewritten, and the number of
   * "called twice" errors logged.
   */
  datatype PageState = PageState(contentReplaced: bool, rewrites: nat, errorsLogged: nat)

  const FreshPage: PageState := PageState(false, 0, 0)

  /** The guard's invariant: the content is rewritten once, exactly when the flag is set. */
  predicate GuardConsistent(p: PageState) {
    p.rewrites == (if p.contentReplaced then 1 else 0)
  }

  /**
   * `replacePageContent()`: the first call rewrites the page and sets the flag
   * (returning `undefined`, here `false`); every later call only logs an error
   * and returns `true`.
   */
  function ReplacePageContent(p: PageState): (r: (PageState, bool))
    ensures r.0.contentReplaced
    ensures r.1 <==> p.contentReplaced
    ensures GuardConsistent(p) ==> GuardConsistent(r.0)
    ensures r.0.rewrites + r.0.errorsLogged == p.rewrites + p.errorsLogged + 1
  {
    if p.contentReplaced then (p.(errorsLogged := p.errorsLogged + 1), true)
    else (p.(contentReplaced := true, rewrites := p.rewrites + 1), false)
  }

  /** `n` consecutive calls of `replacePageContent`. */
  function ReplaceTimes(p: PageState, n: nat): PageState {
    if n == 0 then p else ReplacePageContent(ReplaceTimes(p, n - 1)).0
  }

  /** However often it is called, a fresh page is rewritten once, and every extra call is reported. */
  lemma {:induction false} ReplaceRewritesOnce(n: nat)
    ensures ReplaceTimes(FreshPage, n) == (if n == 0 then FreshPage else PageState(true, 1, n - 1))
  {
    if n > 0 {
      ReplaceRewritesOnce(n - 1);
    }
  }

  /** The method form of `handleDomainBlocking`: the set scan, then the replacement when blocked. */
  method HandleDomainBlocking(s: Settings, host: string, page: PageState) returns (blocked: bool, page': PageState)
    ensures blocked == DomainBlocked(s, host)
    ensures blocked ==> page'.contentReplaced && page'.rewrites + page'.errorsLogged == page.rewrites + page.errorsLogged + 1
    ensures blocked ==> page' == ReplacePageContent(page).0
    ensures blocked && !page.contentReplaced ==> page'.rewrites == page.rewrites + 1 && page'.errorsLogged == page.errorsLogged
    ensures !blocked ==> page' == page
  {
    page' := page;
    if s.whitelistMode {
      var allowed := ScanForDomain(s.whitelistSites, host);
      if allowed {
        return false, page';
      }
      page' := ReplacePageContent(page).0;
      return true, page';
    }
    blocked := ScanForDomain(EffectiveBlacklist(s), host);
    if blocked {
      page' := ReplacePageContent(page).0;
    }
  }

  /** Where `main` stopped: which check blocked the page, or that it went on to watch it. */
  datatype MainOutcome = BlockedByDomain | AntishortsOff | BlockedByPath | Watching

  /**
   * The content script's state after `main`: its outcome, the page, the path
   * table (which `blockYouTubeShorts` appends to) and the hiding style rules
   * injected so far, one selector each.
   */
  datatype Session = Session(outcome: MainOutcome, page: PageState, table: seq<Rule>, styles: seq<string>)

  /** `window.location.hostname.includes('youtube.com')`, the trigger of `blockYouTubeShorts`. */
  predicate OnYouTube(host: string) {
    Contains(host, YouTubeDomain)
  }

  /**
   * `main()` once settings are loaded: the domain decision first; then, only
   * for an unblocked page in anti-shorts mode, the path check; then the
   * early YouTube Shorts blocking and the registration of the load listener.
   */
  function RunMain(s: Settings, host: string, pathname: string): (r: Session)
    ensures r.outcome == BlockedByDomain <==> DomainBlocked(s, host)
    ensures r.outcome == AntishortsOff <==> !DomainBlocked(s, host) && !s.antishortsMode
    ensures r.outcome == BlockedByPath <==>
      !DomainBlocked(s, host) && s.antishortsMode && PathBlocked(BlockedPathTable, host, pathname)
    ensures r.page.contentReplaced <==> r.outcome in {BlockedByDomain, BlockedByPath}
    ensures GuardConsistent(r.page) && r.page.errorsLogged == 0
    ensures r.styles == []
  {
    if DomainBlocked(s, host) then
      Session(BlockedByDomain, ReplacePageContent(FreshPage).0, BlockedPathTable, [])
    else if !s.antishortsMode then
      Session(AntishortsOff, FreshPage, BlockedPathTable, [])
    else if PathBlocked(BlockedPathTable, host, pathname) then
      Session(BlockedByPath, ReplacePageContent(FreshPage).0, BlockedPathTable, [])
    else
      var table := if OnYouTube(host) then PushShorts(BlockedPathTable) else BlockedPathTable;
      Session(Watching, FreshPage, table, [])
  }

  /**
   * In anti-shorts mode no TikTok page survives `main`: the implicit blacklist
   * entry blocks it in blacklist mode, and TikTok's `"/"` rule blocks it even
   * when TikTok is whitelisted.
   */
  lemma TikTokNeverSurvives(s: Settings, host: string, pathname: string)
    requires s.antishortsMode && IsSubdomainOrItself(TikTokDomain, host)
    requires StartsWith(pathname, "/")
    ensures RunMain(s, host, pathname).page.contentReplaced
  {
    if !DomainBlocked(s, host) {
      TikTokEveryPathBlocked(host, pathname);
    }
  }

  /** What can happen to the page after `main`. */
  datatype PageEvent =
    | ContentLoaded  // the `DOMContentLoaded` event
    | ReplaceCalled  // any later call of `replacePageContent`, such as the Shorts click interceptor's

  /**
   * One event. The load listener exists only when `main` reached its end; it
   * does nothing on a replaced page and otherwise injects the hiding style
   * (only when the host's rule has paths) and, on YouTube, runs
   * `blockYouTubeShorts` again. A later `replacePageContent` call goes through
   * the guard and touches nothing but the page.
   */
  function Step(sess: Session, host: string, e: PageEvent): (r: Session)
    ensures r.outcome == sess.outcome
    ensures sess.page.contentReplaced ==> r.page.contentReplaced && r.styles == sess.styles && r.page.rewrites == sess.page.rewrites
    ensures GuardConsistent(sess.page) ==> GuardConsistent(r.page)
    ensures e == ContentLoaded && sess.outcome == Watching && !sess.page.contentReplaced ==>
      (|r.styles| == |sess.styles| + 1 <==> HideButtons(sess.table, host).HideLinks?)
    ensures e == ContentLoaded && sess.outcome == Watching && !sess.page.contentReplaced ==>
      && r.page == sess.page
      && r.styles == sess.styles + (if HideButtons(sess.table, host).HideLinks? then [HideButtons(sess.table, host).selector] else [])
    ensures e == ContentLoaded && (sess.outcome != Watching || sess.page.contentReplaced) ==> r == sess
    ensures e == ReplaceCalled ==> r == sess.(page := ReplacePageContent(sess.page).0)
  {
    match e
    case ReplaceCalled => sess.(page := ReplacePageContent(sess.page).0)
    case ContentLoaded =>
      if sess.outcome != Watching || sess.page.contentReplaced then sess
      else
        var styles := match HideButtons(sess.table, host)
          case NothingToHide => sess.styles
          case HideLinks(selector) => sess.styles + [selector];
        var table := if OnYouTube(host) then PushShorts(sess.table) else sess.table;
        sess.(styles := styles, table := table)
  }

  /** A sequence of events, in order. */
  function Run(sess: Session, host: string, events: seq<PageEvent>): Session
    decreases |events|
  {
    if |events| == 0 then sess else Run(Step(sess, host, events[0]), host, events[1..])
  }

  /** Once replaced, the page is terminal: no event rewrites it again or injects styles. */
  lemma {:induction false} ReplacedIsTerminal(sess: Session, host: string, events: seq<PageEvent>)
    requires sess.page.contentReplaced
    ensures Run(sess, host, events).page.contentReplaced
    ensures Run(sess, host, events).page.rewrites == sess.page.rewrites
    ensures Run(sess, host, events).styles == sess.styles
    decreases |events|
  {
    if |events| > 0 {
      ReplacedIsTerminal(Step(sess, host, events[0]), host, events[1..]);
    }
  }

  /** Along any run the flag goes from false to true at most once and the page is rewritten at most once. */
  lemma {:induction false} RewrittenAtMostOnce(sess: Session, host: string, events: seq<PageEvent>)
    requires GuardConsistent(sess.page)
    ensures GuardConsistent(Run(sess, host, events).page)
    ensures Run(sess, host, events).page.rewrites <= 1
    ensures sess.page.contentReplaced ==> Run(sess, host, events).page.contentReplaced
    decreases |events|
  {
    if |events| > 0 {
      RewrittenAtMostOnce(Step(sess, host, events[0]), host, events[1..]);
    }
  }

  /** The same for a whole page load: `main`, then any events. */
  lemma PageLoadRewritesAtMostOnce(s: Settings, host: string, pathname: string, events: seq<PageEvent>)
    ensures Run(RunMain(s, host, pathname), host, events).page.rewrites <= 1
  {
    RewrittenAtMostOnce(RunMain(s, host, pathname), host, events);
  }

  /** The Shorts path rule is already listed, so however often the table is pushed to, the path decision stays. */
  lemma {:induction false} SessionTableKeepsPathDecision(sess: Session, host: string, events: seq<PageEvent>, pathname: string)
    requires ShortsListed(sess.table)
    requires PathBlocked(sess.table, host, pathname) == PathBlocked(BlockedPathTable, host, pathname)
    ensures PathBlocked(Run(sess, host, events).table, host, pathname) == PathBlocked(BlockedPathTable, host, pathname)
    decreases |events|
  {
    if |events| > 0 {
      var next := Step(sess, host, events[0]);
      PushShortsKeepsDecisions(sess.table, host, pathname);
      SessionTableKeepsPathDecision(next, host, events[1..], pathname);
    }
  }

  /**
   * The table `main` hands to the load listener, and every table a run grows
   * from it, makes the same path decisions as the static table.
   */
  lemma PageLoadKeepsPathRules(s: Settings, host: string, pathname: string, events: seq<PageEvent>, p: string)
    ensures PathBlocked(Run(RunMain(s, host, pathname), host, events).table, host, p) ==
      PathBlocked(BlockedPathTable, host, p)
  {
    RepeatedPushKeepsDecisions(0, host, p);
    RepeatedPushKeepsDecisions(1, host, p);
    assert PushShortsTimes(BlockedPathTable, 1) == PushShorts(BlockedPathTable);
    SessionTableKeepsPathDecision(RunMain(s, host, pathname), host, events, p);
  }

  /** The table `main` leaves hides links on exactly the hosts the static table does. */
  lemma PageLoadHidesPerStaticTable(s: Settings, host: string, pathname: string)
    ensures HideButtons(RunMain(s, host, pathname).table, host).HideLinks? == HideButtons(BlockedPathTable, host).HideLinks?
  {
    assert ShortsListed(BlockedPathTable) by { assert BlockedPathTable[2].paths == [ShortsPath]; }
    PushShortsKeepsDecisions(BlockedPathTable, host, pathname);
  }
}

=== FILE: popup.dfy ===
/**
 * The settings popup (`popup.js`): textarea parsing, the defaults applied when
 * settings are loaded, the twelve-hour cooldown before anti-shorts mode may be
 * switched off, and the `antishortsModeEnabledAt` update on save. Storage and
 * the clock are parameters: what was stored is an input record and `now` is
 * passed to every step that reads `Date.now()`.
 */
module Popup {
  import opened Wrappers
  import opened Text

  /** `DEFAULT_BLACKLIST_SITES` */
  const DefaultBlacklistSites: seq<string> := ["instagram.com", "tiktok.com", "facebook.com", "x.com", "twitter.com"]

  /** `DEFAULT_WHITELIST_SITES` */
  const DefaultWhitelistSites: seq<string> :=
    ["google.com", "chatgpt.com", "claude.ai", "perplexity.ai", "github.com", "stackoverflow.com"]

  /** The separator between textarea entries. */
  const LineBreak: char := '\n'

  /** `TWELVE_HOURS`: 12 * 60 * 60 * 1000 milliseconds. */
  const TwelveHours: int := 43_200_000

  // ----- textarea lists -----

  /** A list the textarea can show and give back unchanged: entries non-empty, trimmed, one per line. */
  predicate WellFormedSites(sites: seq<string>) {
    forall i :: 0 <= i < |sites| ==> |sites[i]| > 0 && IsTrimmed(sites[i]) && LineBreak !in sites[i]
  }

  /** `.map((site) => site.trim())` */
  function TrimAll(lines: seq<string>): seq<string> {
    seq(|lines|, i requires 0 <= i < |lines| => Trim(lines[i]))
  }

  /** `.filter(Boolean)` on strings: the non-empty ones, in their order. */
  function KeepNonEmpty(xs: seq<string>): (r: seq<string>)
    ensures forall s :: s in r <==> s in xs && |s| > 0
  {
    if |xs| == 0 then []
    else
      assert xs == [xs[0]] + xs[1..];
      (if |xs[0]| > 0 then [xs[0]] else []) + KeepNonEmpty(xs[1..])
  }

  /**
   * A one-entry list keeps its entry exactly when it is non-empty. With
   * `KeepNonEmptyAppend` this fixes the result of every list: each non-empty
   * entry once, in order.
   */
  lemma KeepNonEmptySingleton(x: string)
    ensures KeepNonEmpty([x]) == if |x| > 0 then [x] else []
  {
    assert [x][1..] == [];
  }

  /** Filtering a concatenation filters each part, keeping their order. */
  lemma {:induction false} KeepNonEmptyAppend(xs: seq<string>, ys: seq<string>)
    ensures KeepNonEmpty(xs + ys) == KeepNonEmpty(xs) + KeepNonEmpty(ys)
  {
    if |xs| > 0 {
      assert (xs + ys)[1..] == xs[1..] + ys;
      KeepNonEmptyAppend(xs[1..], ys);
    } else {
      assert xs + ys == ys;
    }
  }

  /** Filtering a list with no empty string changes nothing. */
  lemma {:induction false} KeepNonEmptyKeepsAll(xs: seq<string>)
    requires forall i :: 0 <= i < |xs| ==> |xs[i]| > 0
    ensures KeepNonEmpty(xs) == xs
  {
    if |xs| > 0 {
      KeepNonEmptyKeepsAll(xs[1..]);
      assert xs == [xs[0]] + xs[1..];
    }
  }

  /** Trimming only removes characters. */
  lemma TrimKeepsOnlyOwnChars(s: string)
    ensures forall c :: c in Trim(s) ==> c in s
  {
    var r := Trim(s);
    var i :| Surrounds(s, i, r);
    SurroundedChars(s, i, r);
  }

  /** A string that `s` surrounds holds only characters of `s`. */
  lemma SurroundedChars(s: string, i: int, r: string)
    requires Surrounds(s, i, r)
    ensures forall c :: c in r ==> c in s
  {
    forall c | c in r
      ensures c in s
    {
      var j :| 0 <= j < |r| && r[j] == c;
      assert s[i + j] == r[j];
    }
  }

  /**
   * Trimming and filtering single lines leaves entries that are non-empty,
   * trimmed and still on one line.
   */
  lemma CleanLines(lines: seq<string>)
    requires forall k :: 0 <= k < |lines| ==> LineBreak !in lines[k]
    ensures WellFormedSites(KeepNonEmpty(TrimAll(lines)))
  {
    var t := TrimAll(lines);
    var r := KeepNonEmpty(t);
    forall i | 0 <= i < |r|
      ensures |r[i]| > 0 && IsTrimmed(r[i]) && LineBreak !in r[i]
    {
      assert r[i] in r;
      var j :| 0 <= j < |t| && t[j] == r[i];
      TrimKeepsOnlyOwnChars(lines[j]);
    }
  }

  /**
   * `getSitesFromTextarea`: the trimmed lines of the text that are not blank.
   * Every site is non-empty, trimmed and on one line.
   */
  function ParseSites(text: string): (r: seq<string>)
    ensures WellFormedSites(r)
  {
    var lines := Split(text, LineBreak);
    CleanLines(lines);
    KeepNonEmpty(TrimAll(lines))
  }

  /** A line break separates independent lists: the sites of either side, in order. */
  lemma ParseSitesAppend(a: string, b: string)
    ensures ParseSites(a + [LineBreak] + b) == ParseSites(a) + ParseSites(b)
  {
    var xs, ys := Split(a, LineBreak), Split(b, LineBreak);
    SplitAppend(a, b, LineBreak);
    TrimAllAppend(xs, ys);
    KeepNonEmptyAppend(TrimAll(xs), TrimAll(ys));
  }

  /** Trimming a concatenation of lists trims each part. */
  lemma TrimAllAppend(xs: seq<string>, ys: seq<string>)
    ensures TrimAll(xs + ys) == TrimAll(xs) + TrimAll(ys)
  {
  }

  /** A single line gives its trimmed text, or nothing when it is blank. */
  lemma ParseSitesOneLine(line: string)
    requires LineBreak !in line
    ensures ParseSites(line) == if |Trim(line)| == 0 then [] else [Trim(line)]
  {
    var t := Trim(line);
    assert Split(line, LineBreak) == [line];
    assert TrimAll([line]) == [t];
    assert KeepNonEmpty([t]) == (if |t| > 0 then [t] else []) + KeepNonEmpty([t][1..]);
    assert [t][1..] == [];
  }

  /** Round trip: what `join("\n")` writes into the textarea parses back to the same list. */
  lemma ParseJoinRoundTrip(sites: seq<string>)
    requires WellFormedSites(sites)
    ensures ParseSites(Join(sites, [LineBreak])) == sites
  {
    if |sites| == 0 {
      ParseSitesOneLine([]);
    } else {
      SplitJoin(sites, LineBreak);
      assert TrimAll(sites) == sites by {
        forall i | 0 <= i < |sites|
          ensures TrimAll(sites)[i] == sites[i]
        {
          TrimTrimmed(sites[i]);
        }
      }
      KeepNonEmptyKeepsAll(sites);
    }
  }

  /** Saving the textarea, reloading it and saving again stores the same list. */
  lemma ParseIsStable(text: string)
    ensures ParseSites(Join(ParseSites(text), [LineBreak])) == ParseSites(text)
  {
    ParseJoinRoundTrip(ParseSites(text));
  }

  /** Both default lists can be shown in the textarea and parsed back unchanged. */
  lemma DefaultListsWellFormed()
    ensures WellFormedSites(DefaultBlacklistSites)
    ensures WellFormedSites(DefaultWhitelistSites)
  {
  }

  // ----- loading -----

  /**
   * What `chrome.storage.sync.get` hands the popup. `None` stands for a value
   * of the wrong kind: a mode that is not a boolean, a timestamp that is not a
   * number (missing, or the `null` a save writes), a list or flag not stored.
   */
  datatype StoredSettings = StoredSettings(
    antishortsMode: Option<bool>,
    antishortsModeEnabledAt: Option<int>,
    blacklistSites: Option<seq<string>>,
    whitelistSites: Option<seq<string>>,
    whitelistMode: Option<bool>)

  /**
   * The popup's state: the `antishortsMode` variable (assigned at load only),
   * the anti-shorts checkbox, `antishortsModeEnabledAt` (`None` for `null`),
   * the two textareas and the whitelist-mode checkbox.
   */
  datatype PopupState = PopupState(
    loadedMode: bool,
    checked: bool,
    enabledAt: Option<int>,
    blacklistText: string,
    whitelistText: string,
    whitelistChecked: bool)

  /** The state after loading, and the timestamp the load wrote back, if any. */
  datatype Loaded = Loaded(state: PopupState, persistedEnabledAt: Option<int>)

  /**
   * The load callback. Anti-shorts mode is on unless a stored boolean says
   * otherwise; a missing timestamp becomes `now` and is written back; a missing
   * list (but not an empty one) falls back to its default; a missing
   * whitelist-mode flag means off.
   */
  function Load(stored: StoredSettings, now: int): (r: Loaded)
    ensures r.state.loadedMode == r.state.checked
    ensures r.state.loadedMode <==> stored.antishortsMode != Some(false)
    ensures stored.antishortsModeEnabledAt.Some? ==>
      r.state.enabledAt == stored.antishortsModeEnabledAt && r.persistedEnabledAt == None
    ensures stored.antishortsModeEnabledAt.None? ==> r.state.enabledAt == Some(now) && r.persistedEnabledAt == Some(now)
    ensures r.state.whitelistChecked <==> stored.whitelistMode == Some(true)
  {
    var mode := if stored.antishortsMode.Some? then stored.antishortsMode.value else true;
    var enabledAt := if stored.antishortsModeEnabledAt.Some? then stored.antishortsModeEnabledAt else Some(now);
    var persisted := if stored.antishortsModeEnabledAt.Some? then None else Some(now);
    var blacklist := stored.blacklistSites.GetOr(DefaultBlacklistSites);
    var whitelist := stored.whitelistSites.GetOr(DefaultWhitelistSites);
    var state := PopupState(
      mode, mode, enabledAt, Join(blacklist, [LineBreak]), Join(whitelist, [LineBreak]), stored.whitelistMode.GetOr(false));
    Loaded(state, persisted)
  }

  /**
   * The textareas show the stored lists, or the defaults for missing ones: a
   * stored empty list stays empty, because `||` only replaces missing values.
   */
  lemma LoadShowsListsOrDefaults(stored: StoredSettings, now: int)
    requires stored.blacklistSites.Some? ==> WellFormedSites(stored.blacklistSites.value)
    requires stored.whitelistSites.Some? ==> WellFormedSites(stored.whitelistSites.value)
    ensures ParseSites(Load(stored, now).state.blacklistText) ==
      if stored.blacklistSites.Some? then stored.blacklistSites.value else DefaultBlacklistSites
    ensures ParseSites(Load(stored, now).state.whitelistText) ==
      if stored.whitelistSites.Some? then stored.whitelistSites.value else DefaultWhitelistSites
  {
    DefaultListsWellFormed();
    ParseJoinRoundTrip(stored.blacklistSites.GetOr(DefaultBlacklistSites));
    ParseJoinRoundTrip(stored.whitelistSites.GetOr(DefaultWhitelistSites));
  }

  // ----- cooldown -----

  /** JavaScript truthiness of `antishortsModeEnabledAt`: `null` and `0` are falsy. */
  predicate TruthyTime(t: Option<int>) {
    t.Some? && t.value != 0
  }

  /**
   * The checkbox after its `change` handler. Checking is never undone;
   * unchecking is undone exactly when the timestamp is truthy and less than
   * twelve hours old (a timestamp in the future counts as recent).
   */
  function OnAntishortsChange(checked: bool, enabledAt: Option<int>, now: int): (r: bool)
    ensures checked ==> r
    ensures !checked ==> (r <==> TruthyTime(enabledAt) && now - enabledAt.value < TwelveHours)
    ensures !TruthyTime(enabledAt) ==> r == checked
  {
    if checked then true
    else if !TruthyTime(enabledAt) then false
    else
      // popup.js tests the timestamp's truthiness again here; it is known to hold
      var diff := now - enabledAt.value;
      diff < TwelveHours
  }

  /** The cooldown ends exactly twelve hours after enabling. */
  lemma CooldownBoundary(t: int)
    requires t != 0
    ensures OnAntishortsChange(false, Some(t), t + TwelveHours - 1)
    ensures !OnAntishortsChange(false, Some(t), t + TwelveHours)
  {
  }

  // ----- saving -----

  /**
   * The update of `antishortsModeEnabledAt` on save, against the mode the
   * handler compares with: switching on stamps `now`, switching off clears it,
   * keeping it on leaves it alone.
   */
  function NextEnabledAt(priorMode: bool, newMode: bool, enabledAt: Option<int>, now: int): (r: Option<int>)
    ensures !priorMode && newMode ==> r == Some(now)
    ensures !newMode ==> r == None
    ensures priorMode && newMode ==> r == enabledAt
  {
    if !priorMode && newMode then Some(now)
    else if !newMode then None
    else enabledAt
  }

  /** A popup session: its state and the settings last written to storage. */
  datatype Session = Session(ui: PopupState, stored: StoredSettings)

  /** The session right after the load callback; a written-back timestamp is stored. */
  function OpenPopup(stored: StoredSettings, now: int): Session {
    var loaded := Load(stored, now);
    Session(loaded.state, stored.(antishortsModeEnabledAt := loaded.state.enabledAt))
  }

  /**
   * The save handler as written: it compares the checkbox with the mode read
   * at load (`antishortsMode` is never reassigned), then writes every setting.
   */
  function SaveAsWritten(sess: Session, now: int): (r: Session)
    ensures r.stored.antishortsMode == Some(sess.ui.checked)
    ensures r.stored.antishortsModeEnabledAt == r.ui.enabledAt
    ensures r.ui.enabledAt == NextEnabledAt(sess.ui.loadedMode, sess.ui.checked, sess.ui.enabledAt, now)
    ensures r.stored.blacklistSites == Some(ParseSites(sess.ui.blacklistText))
    ensures r.stored.whitelistSites == Some(ParseSites(sess.ui.whitelistText))
    ensures r.stored.whitelistMode == Some(sess.ui.whitelistChecked)
    ensures r.ui == sess.ui.(enabledAt := r.ui.enabledAt)
  {
    var ui := sess.ui;
    var enabledAt := NextEnabledAt(ui.loadedMode, ui.checked, ui.enabledAt, now);
    var stored := StoredSettings(
      Some(ui.checked), enabledAt,
      Some(ParseSites(ui.blacklistText)), Some(ParseSites(ui.whitelistText)), Some(ui.whitelistChecked));
    Session(ui.(enabledAt := enabledAt), stored)
  }

  /**
   * The save handler as evidently intended: the same write, after which the
   * mode it compares with is the one just saved.
   */
  function SaveCorrected(sess: Session, now: int): (r: Session)
    ensures r.ui.loadedMode == sess.ui.checked
    ensures r.stored.antishortsMode == Some(r.ui.loadedMode)
    ensures r.stored.antishortsModeEnabledAt == r.ui.enabledAt
    ensures r.ui.loadedMode ==> r.ui.enabledAt == if sess.ui.loadedMode then sess.ui.enabledAt else Some(now)
    ensures !r.ui.loadedMode ==> r.ui.enabledAt == None
    ensures r.stored.blacklistSites == Some(ParseSites(sess.ui.blacklistText))
    ensures r.stored.whitelistSites == Some(ParseSites(sess.ui.whitelistText))
    ensures r.stored.whitelistMode == Some(sess.ui.whitelistChecked)
    ensures r.ui == sess.ui.(loadedMode := r.ui.loadedMode, enabledAt := r.ui.enabledAt)
  {
    var saved := SaveAsWritten(sess, now);
    saved.(ui := saved.ui.(loadedMode := sess.ui.checked))
  }

  /** What the user can do in the popup; `now` is the time of the event. */
  datatype PopupEvent =
    | ToggleAntishorts(checked: bool, now: int)
    | EditBlacklist(text: string)
    | EditWhitelist(text: string)
    | ToggleWhitelistMode(on: bool)
    | SaveClicked(now: int)

  /** Every event but a save; the cooldown handler runs on each anti-shorts toggle. */
  function Edit(sess: Session, e: PopupEvent): (r: Session)
    requires !e.SaveClicked?
    ensures r.stored == sess.stored && r.ui.loadedMode == sess.ui.loadedMode && r.ui.enabledAt == sess.ui.enabledAt
  {
    match e
    case ToggleAntishorts(checked, now) =>
      sess.(ui := sess.ui.(checked := OnAntishortsChange(checked, sess.ui.enabledAt, now)))
    case EditBlacklist(text) => sess.(ui := sess.ui.(blacklistText := text))
    case EditWhitelist(text) => sess.(ui := sess.ui.(whitelistText := text))
    case ToggleWhitelistMode(on) => sess.(ui := sess.ui.(whitelistChecked := on))
  }

  /** One event, with the save handler as written. */
  function StepAsWritten(sess: Session, e: PopupEvent): Session {
    if e.SaveClicked? then SaveAsWritten(sess, e.now) else Edit(sess, e)
  }

  /** One event, with the corrected save handler. */
  function Step(sess: Session, e: PopupEvent): Session {
    if e.SaveClicked? then SaveCorrected(sess, e.now) else Edit(sess, e)
  }

  /** A sequence of events with the corrected save handler. */
  function Run(sess: Session, events: seq<PopupEvent>): Session
    decreases |events|
  {
    if |events| == 0 then sess else Run(Step(sess, events[0]), events[1..])
  }

  /** Every event happens at a positive time, as `Date.now()` values do. */
  predicate PositiveTimes(events: seq<PopupEvent>) {
    forall i :: 0 <= i < |events| ==> (events[i].ToggleAntishorts? || events[i].SaveClicked?) ==> events[i].now > 0
  }

  /**
   * Whenever the mode the popup believes is saved is on, a truthy timestamp
   * is there to enforce the cooldown.
   */
  predicate CooldownArmed(sess: Session) {
    sess.ui.loadedMode ==> TruthyTime(sess.ui.enabledAt)
  }

  /**
   * With the corrected save, the cooldown stays armed through any session, so
   * unchecking within twelve hours of the last enabling is always undone.
   */
  lemma {:induction false} CorrectedSessionKeepsCooldown(sess: Session, events: seq<PopupEvent>)
    requires CooldownArmed(sess) && PositiveTimes(events)
    ensures CooldownArmed(Run(sess, events))
    decreases |events|
  {
    if |events| > 0 {
      assert PositiveTimes(events[1..]) by {
        forall i | 0 <= i < |events[1..]|
          ensures (events[1..][i].ToggleAntishorts? || events[1..][i].SaveClicked?) ==> events[1..][i].now > 0
        {
          assert events[1..][i] == events[i + 1];
        }
      }
      CorrectedSessionKeepsCooldown(Step(sess, events[0]), events[1..]);
    }
  }

  /** Opening the popup arms the cooldown, unless a stored timestamp of `0` is read. */
  lemma OpenPopupArmsCooldown(stored: StoredSettings, now: int)
    requires now > 0 && stored.antishortsModeEnabledAt != Some(0)
    ensures CooldownArmed(OpenPopup(stored, now))
  {
  }

  /**
   * The as-written save handler compares with the mode read at load. Opened
   * with the mode on and a timestamp twelve hours old: switch off and save,
   * switch on and save (the timestamp stays `null`, the stored mode is on),
   * and switching off is accepted one millisecond later. With the corrected
   * handler the second save stamps the time and the same switch-off is undone.
   */
  lemma CooldownBypassAsWritten(sess: Session, t: int)
    requires t > TwelveHours
    requires sess.ui.loadedMode && sess.ui.checked && sess.ui.enabledAt == Some(t - TwelveHours)
    ensures var s1 := StepAsWritten(StepAsWritten(sess, ToggleAntishorts(false, t)), SaveClicked(t));
      var s2 := StepAsWritten(StepAsWritten(s1, ToggleAntishorts(true, t)), SaveClicked(t));
      && s1.stored.antishortsMode == Some(false)
      && s2.stored.antishortsMode == Some(true) && s2.stored.antishortsModeEnabledAt == None
      && !OnAntishortsChange(false, s2.ui.enabledAt, t + 1)
    ensures var c1 := Step(Step(sess, ToggleAntishorts(false, t)), SaveClicked(t));
      var c2 := Step(Step(c1, ToggleAntishorts(true, t)), SaveClicked(t));
      && c2.stored.antishortsMode == Some(true) && c2.stored.antishortsModeEnabledAt == Some(t)
      && OnAntishortsChange(false, c2.ui.enabledAt, t + 1)
  {
  }
}

=== FILE: text.dfy ===
/**
 * The JavaScript string operations the extension relies on, over `string` (`seq<char>`):
 * `startsWith`, `endsWith`, `includes`, `trim`, `split` on one character and `join`.
 */
module Text {

  /** `s.startsWith(prefix)` */
  predicate StartsWith(s: string, prefix: string) {
    |prefix| <= |s| && s[..|prefix|] == prefix
  }

  /** `s.endsWith(suffix)` */
  predicate EndsWith(s: string, suffix: string) {
    |suffix| <= |s| && s[|s| - |suffix|..] == suffix
  }

  /** `s.includes(sub)`: `sub` occurs at some position of `s`. */
  predicate Contains(s: string, sub: string)
    decreases |s|
  {
    StartsWith(s, sub) || (|s| > 0 && Contains(s[1..], sub))
  }

  /** Whatever is glued in front of `sub`, `sub` still occurs in the result. */
  lemma {:induction false} ContainsAfterPrefix(pre: string, sub: string, post: string)
    ensures Contains(pre + sub + post, sub)
    decreases |pre|
  {
    if |pre| == 0 {
      assert pre + sub + post == sub + post;
      assert (sub + post)[..|sub|] == sub;
    } else {
      assert (pre + sub + post)[1..] == pre[1..] + sub + post;
      ContainsAfterPrefix(pre[1..], sub, post);
    }
  }

  /** Two suffixes of the same string are nested: the shorter is a suffix of the longer. */
  lemma SuffixesNest(s: string, a: string, b: string)
    requires EndsWith(s, a) && EndsWith(s, b) && |a| <= |b|
    ensures EndsWith(b, a)
  {
    assert b[|b| - |a|..] == s[|s| - |a|..];
  }

  /** A suffix of a suffix is a suffix. */
  lemma EndsWithTransitive(s: string, b: string, a: string)
    requires EndsWith(s, b) && EndsWith(b, a)
    ensures EndsWith(s, a)
  {
    assert s[|s| - |a|..] == b[|b| - |a|..];
  }

  /**
   * The characters `String.prototype.trim` removes: ECMAScript's WhiteSpace
   * (tab, vertical tab, form feed, space, no-break space, the Zs separators and
   * the byte order mark) and LineTerminator (LF, CR, LS, PS).
   */
  predicate IsWhitespace(c: char) {
    || c == '\t' || c == '\n' || c == '\U{B}' || c == '\U{C}' || c == '\r' || c == ' '
    || c == '\U{A0}' || c == '\U{1680}' || ('\U{2000}' <= c <= '\U{200A}')
    || c == '\U{2028}' || c == '\U{2029}' || c == '\U{202F}' || c == '\U{205F}'
    || c == '\U{3000}' || c == '\U{FEFF}'
  }

  predicate AllWhitespace(s: string) {
    forall i :: 0 <= i < |s| ==> IsWhitespace(s[i])
  }

  /** Neither end of `s` is whitespace. */
  predicate IsTrimmed(s: string) {
    |s| == 0 || (!IsWhitespace(s[0]) && !IsWhitespace(s[|s| - 1]))
  }

  /** `s` is `r` at position `i`, with nothing but whitespace before and after it. */
  predicate Surrounds(s: string, i: int, r: string) {
    && 0 <= i <= |s| - |r|
    && s[i..i + |r|] == r
    && AllWhitespace(s[..i])
    && AllWhitespace(s[i + |r|..])
  }

  /** `s.trimStart()`: the longest suffix of `s` that does not begin with whitespace. */
  function TrimStart(s: string): (r: string)
    ensures EndsWith(s, r)
    ensures AllWhitespace(s[..|s| - |r|])
    ensures |r| == 0 || !IsWhitespace(r[0])
  {
    if |s| > 0 && IsWhitespace(s[0]) then TrimStart(s[1..]) else s
  }

  /** `s.trimEnd()`: the longest prefix of `s` that does not end with whitespace. */
  function TrimEnd(s: string): (r: string)
    ensures StartsWith(s, r)
    ensures AllWhitespace(s[|r|..])
    ensures |r| == 0 || !IsWhitespace(r[|r| - 1])
  {
    if |s| > 0 && IsWhitespace(s[|s| - 1]) then TrimEnd(s[..|s| - 1]) else s
  }

  /**
   * `s.trim()`: `s` is the result surrounded by whitespace only, and the result
   * neither begins nor ends with whitespace.
   */
  function Trim(s: string): (r: string)
    ensures IsTrimmed(r)
    ensures exists i :: Surrounds(s, i, r)
  {
    var t := TrimStart(s);
    var r := TrimEnd(t);
    assert |r| > 0 ==> r[0] == t[0];
    var i := |s| - |t|;
    assert s[i..] == t;
    assert s[i..i + |r|] == r;
    assert s[i + |r|..] == t[|r|..];
    assert Surrounds(s, i, r);
    r
  }

  /** Trimming a string that is already trimmed gives it back. */
  lemma TrimTrimmed(s: string)
    requires IsTrimmed(s)
    ensures Trim(s) == s
  {
  }

  /** `parts.join(sep)` */
  function Join(parts: seq<string>, sep: string): string {
    if |parts| == 0 then []
    else if |parts| == 1 then parts[0]
    else parts[0] + sep + Join(parts[1..], sep)
  }

  /** Joining two non-empty lists puts exactly one separator between their joins. */
  lemma {:induction false} JoinAppend(xs: seq<string>, ys: seq<string>, sep: string)
    requires |xs| > 0 && |ys| > 0
    ensures Join(xs + ys, sep) == Join(xs, sep) + sep + Join(ys, sep)
  {
    if |xs| == 1 {
      assert (xs + ys)[1..] == ys;
    } else {
      assert (xs + ys)[1..] == xs[1..] + ys;
      JoinAppend(xs[1..], ys, sep);
    }
  }

  /** `s.indexOf(c)` on a string that contains `c`. */
  function IndexOf(s: string, c: char): (i: nat)
    requires c in s
    ensures i < |s| && s[i] == c && c !in s[..i]
  {
    if s[0] == c then 0
    else
      assert c in s[1..] by { assert s == [s[0]] + s[1..]; }
      var k := IndexOf(s[1..], c);
      assert s[..k + 1] == [s[0]] + s[1..][..k];
      k + 1
  }

  /**
   * `s.split(sep)` for a one-character separator: the maximal pieces of `s` free
   * of `sep`, at least one of them, which `join` glues back into `s`.
   */
  function Split(s: string, sep: char): (r: seq<string>)
    ensures |r| > 0
    ensures forall k :: 0 <= k < |r| ==> sep !in r[k]
    ensures Join(r, [sep]) == s
    decreases |s|
  {
    if sep in s then
      var i := IndexOf(s, sep);
      var rest := Split(s[i + 1..], sep);
      var r := [s[..i]] + rest;
      assert r[1..] == rest;
      assert s == s[..i] + [sep] + s[i + 1..];
      r
    else
      [s]
  }

  /** Splitting at a first separator peels off the piece before it. */
  lemma SplitAtFirst(head: string, rest: string, sep: char)
    requires sep !in head
    ensures Split(head + [sep] + rest, sep) == [head] + Split(rest, sep)
  {
    var s := head + [sep] + rest;
    assert s[|head|] == sep;
    var i := IndexOf(s, sep);
    assert i == |head| by {
      assert s[..|head|] == head;
    }
    assert s[..i] == head;
    assert s[i + 1..] == rest;
  }

  /** Splitting a join of separator-free pieces gives the pieces back. */
  lemma {:induction false} SplitJoin(parts: seq<string>, sep: char)
    requires |parts| > 0
    requires forall k :: 0 <= k < |parts| ==> sep !in parts[k]
    ensures Split(Join(parts, [sep]), sep) == parts
  {
    if |parts| > 1 {
      var rest := Join(parts[1..], [sep]);
      assert Join(parts, [sep]) == parts[0] + [sep] + rest;
      SplitAtFirst(parts[0], rest, sep);
      SplitJoin(parts[1..], sep);
      assert parts == [parts[0]] + parts[1..];
    }
  }

  /** A separator splits the string into the pieces of either side, in order. */
  lemma SplitAppend(a: string, b: string, sep: char)
    ensures Split(a + [sep] + b, sep) == Split(a, sep) + Split(b, sep)
  {
    var xs := Split(a, sep);
    var ys := Split(b, sep);
    JoinAppend(xs, ys, [sep]);
    assert forall k :: 0 <= k < |xs + ys| ==> sep !in (xs + ys)[k] by {
      forall k | 0 <= k < |xs + ys|
        ensures sep !in (xs + ys)[k]
      {
        if k < |xs| { assert (xs + ys)[k] == xs[k]; } else { assert (xs + ys)[k] == ys[k - |xs|]; }
      }
    }
    SplitJoin(xs + ys, sep);
  }
}

=== FILE: wrappers.dfy ===
/** The optional value used for the extension's "possibly undefined" JavaScript values. */
module Wrappers {

  /** `None` stands for a JavaScript value that is `undefined` (or of the wrong type). */
  datatype Option<+T> = None | Some(value: T) {

    /** The encapsulated value, or `default` when there is none (JavaScript's `x || default`). */
    function GetOr(default: T): T {
      match this
      case Some(v) => v
      case None => default
    }
  }
}
